=== FILE: README.md ===
# browserid_deployer watchdog, in Dafny

A model of the deployment watchdog that keeps the dev.anosrep.org
environment on the latest revision.

`deploy_server.js` runs a `Deployer` that works like this:

- It pulls the `dev` branch and reads the local sha.
- It asks `lib/latest_sha.js` which sha is live on `login.dev.anosrep.org`.
- If the two differ, it emits `deployment_begins` and runs `npm install`.
- It then runs `deploy_dev.js`, which creates a fresh VM named after the sha, copies extra ssh keys onto it, pushes the code and points DNS at it.
- On exit 0 it emits `deployment_complete` and decommissions stale VMs.

Listeners on the deployer's events keep `deployingSHA` for the status page. They re-check after a deployment completes, and after an `error` they schedule a retry.

The model is functional:

- Every entity is an immutable datatype.
- Each callback of the deployer is a transition function that returns the new state and the ordered list of events emitted. Listeners run inside `emit`, exactly where the source has them.
- The state holds every callback still to fire, as a sequence: those of the checks in flight and those of the VM cleanups. An input names the callback that fires by its position, so the inputs choose the order in which concurrent callbacks arrive.
- Foreign calls (git, npm, awsbox, ssh, DNS, HTTP, Route53) appear only through their outcomes, which are parameters.

| file | module | what |
|---|---|---|
| wrappers.dfy | Wrappers | `Option` (null/undefined) and `Result` (a Node callback's `err, value`) |
| strings.dfy | Strings | JavaScript `split`, `join`, `trim`, `indexOf` and truthiness |
| latest_sha.dfy | LatestSha | parent domain, first A record, error paths, `ver.txt` parse |
| deploy_dev.dfy | DeployDev | keypairs, VM name, `copyNext`, redaction, the four-step chain |
| deploy_server.dfy | DeployServer | events, `splitAndEmit`, stale-VM selection, cleanup, status text |
| deployer.dfy | Deployer | the check/deploy state machine and its invariant |
| deployer_trace.dfy | DeployerTrace | runs over input sequences: well-nesting, wedge, whole cycles |
| pipeline.dfy | Pipeline | how deploy_dev's exit code and VM name meet the deployer |

Where the code and the behaviour its authors describe disagree, the model follows the code:

- **The re-check after a deployment does nothing.** `deployment_complete` is emitted (deploy_server.js:134) before the callback that clears `busy` runs (deploy_server.js:140, 163). So the listener's `checkForUpdates` (deploy_server.js:241) hits the busy guard. `DeployerTrace.DeployCycle` shows a complete successful cycle that emits "checking for updates" only once and ends in the state it started from, except that one cleanup callback (`CleanupSha`) is left pending. A rapid-fire commit therefore waits for the next trigger.
- **A failed `npm install` wedges the deployer.** The failure emits `error` and returns without calling back (deploy_server.js:95-97), so `busy` stays set. `DeployerTrace.InstallFailureWedges` and `DeployerTrace.WedgedForever` show that every later check, retry and trigger is then ignored.
- **The stale-VM filter never matches a dev VM.** The filter looks for "login.dev.anosrep.org" in VM names (deploy_server.js:18, 62). deploy_dev.js names its VMs "dev.anosrep.org (<sha>)" (deploy_dev.js:45). `Pipeline.DevVmsNeverSelected` proves that no such name contains the host name when the sha is written in hexadecimal digits, whatever its length. The model keeps the filter as written.
- **A DNS timeout starts the deployment twice.** On a timeout `resolve` calls back with "Timeout resolving …" (lib/latest_sha.js:31-33), and the request's `end` handler then calls back again with no address (lib/latest_sha.js:44-46). `latestSha` passes the second call on as "Found no IP for host …". The deployer's callback (deploy_server.js:119-128) runs both times: it emits a second `deployment_begins` while the first deployment is open and spawns a second `npm install` in the same directory. `DeployerTrace.TimeoutBeginsTwice` shows such a run from start-up, whose log does not replay. Single flight (`DeployerTrace.SingleFlight`) and the status/log agreement hold only for runs without such a timeout, and the lemmas say so in their preconditions. `DeployerTrace.BeginsPrecedesComplete` holds in every run.
- **The resolver-failure warning repeats the latest sha.** On a resolver failure the `warn` text is "latest available sha is <latest>" (deploy_server.js:123), not the resolver's error. The model keeps that text.

## Model

| member | source | states |
|---|---|---|
| Strings.IndexOf | deploy_server.js:64 | `indexOf` is -1 exactly when the pattern occurs nowhere; otherwise it is the first index where it occurs |
| Strings.Split | deploy_server.js:82 | `split` with a one-character separator yields at least one piece, and no piece contains the separator |
| Strings.JoinSplit | lib/latest_sha.js:14 | joining the pieces of a split with the same separator gives back the original string |
| Strings.SplitJoin | lib/latest_sha.js:14 | splitting a join of separator-free pieces gives back the pieces |
| Strings.SplitAround | deploy_server.js:82 | splitting at one separator splits the two sides independently |
| Strings.FirstPiece | lib/latest_sha.js:63 | the first piece of a split is the prefix before the first separator |
| Strings.Trim | deploy_server.js:83 | `trim` never lengthens its input, and the result neither starts nor ends with JavaScript white space or a line terminator |
| Strings.TrimIsInfix | deploy_server.js:83 | what `trim` keeps is an infix of the input, and everything removed on either side is white space or a line terminator |
| Strings.TrimKeepsCharacters | deploy_server.js:83 | every character of a trimmed line occurs in the line |
| Strings.TrimOfTrimmed | deploy_server.js:83 | a string that neither starts nor ends with white space is left unchanged by `trim` |
| Strings.TrimEmptyIffAllSpace | deploy_server.js:83-84 | a line trims to nothing exactly when it is all white space |
| Strings.TrimIdempotent | deploy_server.js:83 | trimming a trimmed line changes nothing |
| LatestSha.ParentDomainOfLabel | lib/latest_sha.js:14 | the zone of `host.zone`, for a dotless first label, is `zone` |
| LatestSha.ParentDomainDropsFirstLabel | lib/latest_sha.js:14 | the zone asked for the nameserver is the host name with its first dot-separated label removed; a dotless name gives "" |
| LatestSha.FirstAddressed | lib/latest_sha.js:35-41 | reference definition: the index of the first record with a truthy address |
| LatestSha.FoundAddressIsFirst | lib/latest_sha.js:35-41 | the address kept is that of the first record carrying one; if no record carries one, the result is falsy |
| LatestSha.LaterRecordsNeverOverwrite | lib/latest_sha.js:37-41 | once an address is found, records from later messages never replace it |
| LatestSha.Resolve | lib/latest_sha.js:12-51 | `resolve`'s callback is called once with a zone-lookup error, unchanged; after a timeout it is called twice, first with "Timeout resolving " + host and then, from `end`, with no address; otherwise it is called once with `FoundAddress` of the records, which is the address of the first record carrying one, and which is truthy iff some record has one |
| LatestSha.NextAfterResolve | lib/latest_sha.js:54-58 | a resolve error is passed on unchanged; a falsy address gives "Found no IP for host " + host; a fetch happens iff the address is truthy |
| LatestSha.ParseVersion | lib/latest_sha.js:61-67 | a sha is accepted iff the text before the first space is exactly 7 characters long; the sha is that prefix; otherwise the error is "malformed ver.txt: " + body |
| LatestSha.VersionMarkerRoundTrip | lib/latest_sha.js:63-65 | a 7-character sha, alone or followed by a space and anything else, parses back to itself |
| LatestSha.TrailingNewlineIsMalformed | lib/latest_sha.js:63-67 | a sha followed by a newline is rejected as malformed, since only the space character splits |
| LatestSha.Deliver | lib/latest_sha.js:53-76 | one call of `resolve`'s callback passed on: an error or a missing address gives up with its message, and any sha passed on is 7 characters long with no space |
| LatestSha.LatestSha | lib/latest_sha.js:53-76 | the callback fires twice exactly on a DNS timeout, with "Timeout resolving " + host and then "Found no IP for host " + host; otherwise once, with each error path's own message or the parsed sha; any sha passed on is 7 characters long with no space |
| LatestSha.NoFetchWithoutAddress | lib/latest_sha.js:54-56 | when no call of `resolve`'s callback carries an address, every call passed on is an error and none depends on the HTTP outcome: no fetch happens |
| DeployDev.Keypairs | deploy_dev.js:23-26 | no keys when ADDITIONAL_KEYPAIRS is unset or empty; otherwise comma-free pieces that join back to the variable's value |
| DeployDev.VmName | deploy_dev.js:45 | the VM name contains the sha |
| DeployDev.VmNameRoundTrip | deploy_dev.js:45 | the sha can be read back out of the VM name, so the name determines the sha |
| DeployDev.FirstFailure | deploy_dev.js:61-69 | reference definition: the index of the first failed key add |
| DeployDev.CopyKeys | deploy_dev.js:60-69 | keys are tried in list order, each once, up to and including the first failure, whose error is reported; each success before it emits one "key added..."; with no failure (or no keys) it succeeds |
| DeployDev.Redact | deploy_dev.js:90 | a line containing `"pass"` becomes `<OUTPUT HIDDEN>`, any other line is unchanged, and the result never contains `"pass"` |
| DeployDev.RedactIdempotent | deploy_dev.js:90 | redacting twice is redacting once |
| DeployDev.Shown | deploy_dev.js:89-97 | a printed line is the listener's tag followed by the redacted text, and never contains `"pass"` |
| DeployDev.RunDev | deploy_dev.js:99-121 | steps start strictly in the order setup, create, pushCode, updateDNS; every step before the last one started succeeded; the run is fatal iff the last step started failed iff some step fails; the VM name carries the sha; no line printed by the `progress` and `build_output` listeners contains `"pass"` |
| DeployDev.ErrorAbortsLaterSteps | deploy_dev.js:99-114 | an error at any step leaves every later step unstarted, and the process exits with 1 |
| DeployServer.LineEvents | deploy_server.js:83-84 | a line gives one `progress` event exactly when its trimmed text is non-empty, and that event carries the trimmed text |
| DeployServer.ProgressLines | deploy_server.js:82-85 | at most one event per line, each a non-empty, newline-free `progress` line that neither starts nor ends with white space |
| DeployServer.ProgressLinesAppend | deploy_server.js:82-85 | the lines are handled one after another: the events for two runs of lines are those of the first run followed by those of the second |
| DeployServer.SplitAndEmit | deploy_server.js:79-87 | every `progress` line emitted is non-empty, trimmed and newline-free |
| DeployServer.SplitAndEmitOneLine | deploy_server.js:79-87 | a chunk without a newline gives exactly its trimmed text, or nothing if it is all white space |
| DeployServer.SplitAndEmitLines | deploy_server.js:82-85 | the events of two lines joined by a newline are the events of the first followed by those of the second: one event per line, in order |
| DeployServer.SelectStale | deploy_server.js:61-64 | a VM is selected iff it is listed, its name contains the deploy host name, and its name does not contain the latest sha |
| DeployServer.SelectStaleAppend | deploy_server.js:62-64 | selection keeps the listing order |
| DeployServer.Decommission | deploy_server.js:65-66 | one `info` "decommissioning VM: <name> - <instance id>" and one destroy request per selected VM, for its instance id, in order |
| DeployServer.CleanUp | deploy_server.js:54-74 | a failure of either lookup is reported as `info` and destroys nothing; otherwise there is one event per destroy request and at most one per listed VM; every event is `info` |
| DeployServer.CleanUpDestroysStale | deploy_server.js:59-66 | after both lookups succeed, every listed VM whose name contains the deploy host name and not the latest sha is destroyed, and every destroy request is for such a VM |
| DeployServer.DestroyReport | deploy_server.js:66-69 | a destroy outcome is always reported as `info`, with the failure or success text |
| DeployServer.Status | deploy_server.js:289-292 | the status is "idle" iff `deployingSHA` is not truthy, otherwise "deploying " + sha |
| Deployer.CheckForUpdates | deploy_server.js:153-159 | while busy, nothing changes and nothing is emitted; otherwise `busy` is set, a pull is added to the pending callbacks, and "checking for updates" is the only event |
| Deployer.Emit | deploy_server.js:216-260 | an emitted event is recorded first; `deployment_begins` sets `deployingSHA`; `deployment_complete` clears it and runs `checkForUpdates`, which starts a pull only if `busy` was clear and leaves `busy` set; `error` clears it and arms exactly one retry; every other event changes no state |
| Deployer.CheckDone | deploy_server.js:161-164 | an error is emitted first (clearing `deployingSHA` and arming a retry) and then `busy` is cleared; without an error `busy` is cleared silently; no pending callback changes |
| Deployer.OnPullDone | deploy_server.js:114-115 | a pull error is emitted as `error`, and the check ends with `busy` cleared and one retry armed; otherwise the local sha lookup becomes pending |
| Deployer.OnLocalSha | deploy_server.js:116-118 | a sha error ends the check like a pull error; otherwise "latest available sha is" + sha is announced and the live-sha lookup becomes pending |
| Deployer.RunningReport | deploy_server.js:42-51 | the resolver's answer is reported as `info`: "can't get current running code: " + the error, or "current running sha is: " + the sha |
| Deployer.RunningReportInjective | deploy_server.js:45-49 | two resolver answers give the same report exactly when they are equal, so the log records what the resolver answered |
| Deployer.OnRunningSha | deploy_server.js:119-145 | each call of the callback: equal shas give exactly "current running sha is" and "up to date", and `busy` is cleared; otherwise exactly the resolver report, a `warn` iff the resolver failed, and `deployment_begins{latest}`, in that order, with `deployingSHA` set and an `npm install` pending; it emits nothing but `info`, `warn` and `deployment_begins{latest}`, and starts no cleanup |
| Deployer.OnRunningShaTimedOut | deploy_server.js:119-128 | the first call after a DNS timeout (lib/latest_sha.js:31-33) emits what any failed lookup emits, and leaves both an `npm install` and the request's second callback pending |
| Deployer.OnRequestEnded | deploy_server.js:119-128 | the second call, from the request's `end` (lib/latest_sha.js:44-46), ends in another `deployment_begins{latest}` and adds another `npm install`; like the first call it emits only `info`, `warn` and that `deployment_begins` |
| Deployer.OnInstallExit | deploy_server.js:94-98 | a failed `npm install` emits its error, clears `deployingSHA`, arms a retry, and leaves `busy` as it was; a clean exit makes the deploy script pending |
| Deployer.OnDeployExit | deploy_server.js:131-141 | the deploy script's exit (lines 103-105) always leaves `busy` cleared: a non-zero exit ends the check with `error(true)`; exit 0 emits `deployment_complete{latest}`, whose re-check does nothing while busy and starts a pull otherwise, and starts a cleanup |
| Deployer.OnRetryTimer | deploy_server.js:255-259 | a firing retry timer is consumed and calls `checkForUpdates` |
| Deployer.OnCleanupSha | deploy_server.js:57-58 | the cleanup's sha lookup reports an error as `info`; otherwise the VM listing becomes pending |
| Deployer.OnVmList | deploy_server.js:59-72 | the listing's callback emits the `info` events of `DeployServer.CleanUp` and leaves one `vm.destroy` pending per stale VM |
| Deployer.StepWhenDue | deploy_server.js:89-118 | an input naming a position that holds no pending callback of its kind changes nothing; `git pull` output becomes a `progress` line exactly while the pull is pending; child output (lines 91-92, 101-102) becomes its split lines; neither changes the state |
| Deployer.StepPreservesValid | deploy_server.js:153-260 | every step other than a resolver timeout keeps the invariant: at most one check is in flight, a pending callback implies `busy`, and `deployingSHA` names exactly the deployment in flight |
| Deployer.RoutineStep | deploy_server.js:54-164 | no input other than a call of the resolver's callback or the deploy script's exit emits `deployment_begins` or `deployment_complete`, or starts a cleanup |
| Deployer.CompleteOnlyOnCleanExit | deploy_server.js:131-141 | `deployment_complete` and cleanup come only from a deploy exit with code 0, for the sha that deploy was running |
| Deployer.BeginsOnlyOnDrift | deploy_server.js:125-128 | `deployment_begins{sha}` comes only from a call of the resolver's callback for `sha` that is not `sha` itself: an answer that differs, an error, a timeout, or the second call after a timeout |
| DeployerTrace.FoldAppend | deploy_server.js:153-260 | feeding two input sequences in turn is feeding their concatenation |
| DeployerTrace.EmitFollowsReplay | deploy_server.js:216-260 | for every event that is in order, the listeners leave `deployingSHA` where the reference replay of the recorded events ends |
| DeployerTrace.StepReplays | deploy_server.js:216-260 | for every step other than a resolver timeout, replaying its begins/complete/error events from `deployingSHA` before it gives `deployingSHA` after it |
| DeployerTrace.RunReplays | deploy_server.js:216-260 | over any run without a resolver timeout, the invariant holds and the log replays in order from the first `deployingSHA` to the last |
| DeployerTrace.StatusMatchesLog | deploy_server.js:216-292 | from start-up and without a resolver timeout, the log is well nested, and the status page shows "idle" exactly when the log leaves no deployment open |
| DeployerTrace.SingleFlight | deploy_server.js:125-141 | in any run from start-up without a resolver timeout, `deployment_begins` comes only when no deployment is open, and `deployment_complete` only for the open one; `DeployerTrace.TimeoutBeginsTwice` shows the hypothesis is needed |
| DeployerTrace.TimeoutBeginsTwice | deploy_server.js:119-128 | a check from start-up whose DNS request times out emits `deployment_begins{latest}` twice with no complete between, leaves two `npm install` runs pending, breaks the invariant, and its log does not replay |
| DeployerTrace.TimeoutSteps | deploy_server.js:119-128 | the two resolver calls after a timeout emit, each, the lookup report, the warning and `deployment_begins{latest}` |
| DeployerTrace.RunKeepsBegun | deploy_server.js:126-137 | in any run, every `deployment_complete{sha}` has a `deployment_begins{sha}` before it, provided every deployment pending at the start had begun |
| DeployerTrace.BeginsPrecedesComplete | deploy_server.js:126-137 | in every run from start-up, resolver timeouts included, every `deployment_complete{sha}` is preceded by a `deployment_begins{sha}` |
| DeployerTrace.EachErrorArmsOneRetry | deploy_server.js:244-260 | in every state, each `error` event arms exactly one retry, and a firing retry consumes one |
| DeployerTrace.InstallFailureWedges | deploy_server.js:94-98 | after a failed `npm install`, the deployer is busy with no callback pending |
| DeployerTrace.WedgedForever | deploy_server.js:153-156 | once wedged by a failed `npm install` (lines 94-98), the deployer stays wedged through any inputs and emits nothing but child-process `progress` and the `info` reports of cleanups already under way |
| DeployerTrace.CheckStart | deploy_server.js:110-118 | from an idle state, a check (started at lines 153-159) whose pull and local sha lookup succeed emits "checking for updates" and the latest sha, and ends busy waiting for the live sha |
| DeployerTrace.DriftStep | deploy_server.js:119-128 | when the live sha differs from the latest one, the step reports the live sha (lines 45-49), warns iff the lookup failed, emits `deployment_begins{latest}` and moves on to `npm install` with `deployingSHA` set |
| DeployerTrace.InstallOkStep | deploy_server.js:94-99 | a clean `npm install` exit silently starts the deploy script |
| DeployerTrace.DeployFinish | deploy_server.js:119-141 | from the live-sha lookup on, a drifted check runs begins, `npm install` and then the deploy script's exit, in that order |
| DeployerTrace.UpToDateCycle | deploy_server.js:110-164 | an up-to-date check emits exactly four `info` events, starts no deployment, and ends in the state it started from |
| DeployerTrace.DeployCycle | deploy_server.js:125-164 | a successful deploy emits begins then complete for the latest sha, the listener's re-check does nothing, a cleanup becomes pending, and the rest of the state ends where it started |
| DeployerTrace.FailedDeployCycle | deploy_server.js:131-164 | a deploy that exits non-zero ends with begins then `error(true)`, `busy` cleared and one retry armed |
| DeployerTrace.CleanupChain | deploy_server.js:54-74 | a cleanup's sha lookup and VM listing, fired in turn, emit exactly the events of `DeployServer.CleanUp` and leave exactly its destroy requests pending |
| Pipeline.DeployHostZone | deploy_server.js:18 | the deploy host's address is asked of the "dev.anosrep.org" zone |
| Pipeline.DevRunDrivesDeployer | deploy_server.js:104-105 | for any pending deploy, the deployment completes and cleanup starts iff every step of the deploy_dev.js run succeeded; otherwise the deployer emits `error(true)`; `busy` ends cleared |
| Pipeline.TimeoutCallsBackTwice | lib/latest_sha.js:31-56 | on a DNS timeout for the deploy host `latestSha` calls back with exactly the two values the deployer's two timeout inputs deliver |
| Pipeline.NewVmSurvivesCleanup | deploy_server.js:64 | the VM just created, whose name carries the latest sha, is never selected for decommissioning |
| Pipeline.DevVmsNeverSelected | deploy_server.js:62 | no VM named by deploy_dev.js after a hexadecimal sha, of any length, contains the deploy host name, so the filter never selects one |

## Left out

- Foreign calls are left out because they are I/O. Their outcomes are inputs: git init/pull/currentSHA, `npm install`, spawning deploy_dev.js, `awsbox create`, `ssh.addSSHPubKey`, `git.push`, and the Zerigo DNS delete and update. The delete's error is ignored by the source, as in the model.
- The Route53 zone lookup, `dns.resolve4` and the native-dns request are network I/O. Only the zone lookup's error and the request's end (timeout, or the answer records) are modelled. `dns.resolve4`'s error is ignored by the source and `ip[0]` is used unchecked; that crash path is not modelled.
- LatestSha.Resolve: the DNS timeout is modelled as firing only when no answer arrived, so the `end` that follows it finds no address. An answer that arrives after the timeout is not modelled.
- Deployer.StepPreservesValid: the invariant is not promised across a resolver timeout, because the source breaks it there: the timeout leaves the request's second callback pending, and that call starts a second deployment (`DeployerTrace.TimeoutBeginsTwice`).
- DeployerTrace.StepReplays: not promised for a resolver timeout step, for the same reason.
- DeployerTrace.RunReplays: promised only for runs without a resolver timeout; `DeployerTrace.TimeoutBeginsTwice` is a run with one whose log does not replay.
- DeployerTrace.StatusMatchesLog: promised only for runs without a resolver timeout, since such a run opens the same deployment twice.
- DeployerTrace.SingleFlight: promised only for runs without a resolver timeout, since such a run emits a second `deployment_begins` while the first is open.
- All answer sections of a request are modelled as one list of records. `LatestSha.LaterRecordsNeverOverwrite` covers several messages.
- `http.get` of `/ver.txt` is modelled as its whole body or its error. Streaming is left out. The try/catch around the parse (lib/latest_sha.js:62-70) is left out too: the parse cannot throw on a string, but the `try` also wraps the calls of `cb`. If the deployer's synchronous callback chain throws, `latestSha` calls back a second time with the exception. That re-entry is not modelled.
- Errors from foreign calls are assumed truthy. The source tests them with JavaScript truthiness (`if (err)`, deploy_server.js:45, 58, 60, 115, 117, 122, 132 and 162; deploy_dev.js:64 and 100), so an empty-string error goes on as if the call succeeded. The model treats every reported error, including "", as an error. This affects `Deployer.CheckDone`, `Deployer.OnPullDone`, `Deployer.OnLocalSha`, `Deployer.RunningReport`, `Deployer.OnRunningSha`, `Deployer.OnCleanupSha`, `DeployDev.CopyKeys` and `DeployDev.RunDev`.
- Timers: the 15-minute interval and the 2-minute retry are inputs (`Check`, `RetryTimer`), not real time.
- The express routes `/check` and `/` are left out. Each `/check` is a `Check` input, and only the status text of `/` is modelled.
- IRC messages, log files, `console.log` and event timestamps are output only, so they are left out. This includes the 1-second disconnect timer (deploy_server.js:205-212), which affects only IRC. `JSON.stringify` of payloads and the `time` field of `deployment_complete` (a clock) are left out too.
- The IP-address regex over awsbox's output (deploy_dev.js:58) is left out. It parses a foreign tool's output. If it fails to match, deploy_dev.js crashes; that exit is not modelled.
- The JSONSelect traversal of the VM listing is modelled as a flat list of name and instance-id records.
- Chunks of child output are modelled as strings. Buffer decoding and `toString` are left out.
- String lengths are counted in characters, not UTF-16 code units. This matters only for the length-7 check on a sha outside the Basic Multilingual Plane.
- The `ready` event and a failing `git.init` at start-up (deploy_server.js:31-37) are left out. The model starts from the idle state.
- The closing summary line of deploy_dev.js (deploy_dev.js:115-117) is not part of `DeployDev.DevRun.printed`, because it holds a duration.
- DeployDev.RunDev: the no-`"pass"` promise covers only the lines printed by the `progress` and `build_output` listeners. Two channels print unredacted text and are not modelled. `awsbox create`'s stdout and stderr are piped straight to the process's output (deploy_dev.js:71-72), and deploy_server.js turns that output into `progress` events. `checkerr` writes "fatal error: " + err as it is (deploy_dev.js:101).
- Child output after a process has exited is accepted in any state, since the source's listeners stay attached.

=== FILE: deploy_dev.dfy ===
/** deploy_dev.js: the child process that brings up a dev VM for the checked
    out revision. It runs setup, create, pushCode and updateDNS strictly in
    that order, and the first error is fatal (the process exits with code 1).
    The awsbox, ssh, git and DNS calls are foreign; their outcomes are inputs. */
module DeployDev {
  import opened Wrappers
  import opened Strings

  // ---------------------------------------------------------------------------
  // Configuration

  /** `keypairs`: empty when ADDITIONAL_KEYPAIRS is unset or empty, otherwise
      its comma-separated pieces (which join back to the variable's value). */
  function Keypairs(env: Option<string>): (keys: seq<string>)
    ensures !Truthy(env) ==> keys == []
    ensures Truthy(env) ==> && |keys| >= 1
                            && Join(keys, ',') == env.value
                            && forall i :: 0 <= i < |keys| ==> ',' !in keys[i]
  {
    if Truthy(env) then
      JoinSplit(env.value, ',');
      Split(env.value, ',')
    else
      []
  }

  // ---------------------------------------------------------------------------
  // The VM name

  const VmNamePrefix := "dev.anosrep.org ("

  /** The `-n` argument given to `awsbox create`. */
  function VmName(sha: string): (name: string)
    ensures Contains(name, sha)
    ensures |name| == |VmNamePrefix| + |sha| + 1
  {
    var name := VmNamePrefix + sha + ")";
    assert OccursAt(name, sha, |VmNamePrefix|);
    name
  }

  /** Reads the sha back out of a VM name of that shape. */
  function ShaOfVmName(name: string): Option<string> {
    if |name| > |VmNamePrefix| && name[..|VmNamePrefix|] == VmNamePrefix && name[|name| - 1] == ')'
    then Some(name[|VmNamePrefix|..|name| - 1])
    else None
  }

  /** The VM name determines the sha it was built for. */
  lemma VmNameRoundTrip(sha: string)
    ensures ShaOfVmName(VmName(sha)) == Some(sha)
  {
    var name := VmName(sha);
    assert name[..|VmNamePrefix|] == VmNamePrefix;
    assert name[|VmNamePrefix|..|name| - 1] == sha;
  }

  // ---------------------------------------------------------------------------
  // Copying the additional keys

  const KeyAdded := "key added..."

  /** `n` copies of `x`. */
  function Repeat(x: string, n: nat): (r: seq<string>)
    ensures |r| == n && forall i :: 0 <= i < n ==> r[i] == x
  {
    if n == 0 then [] else [x] + Repeat(x, n - 1)
  }

  /** Reference definition: the index of the first failed key add, or the
      number of keys when every add succeeds. */
  function FirstFailure(results: seq<Option<string>>): (k: nat)
    ensures k <= |results|
    ensures forall i :: 0 <= i < k ==> results[i].None?
    ensures k < |results| ==> results[k].Some?
    decreases |results|
  {
    if |results| == 0 then 0
    else if results[0].Some? then 0
    else 1 + FirstFailure(results[1..])
  }

  /** What `copyNext` did: the keys it tried to add, in order, the progress
      messages it emitted and the error it reported, if any. */
  datatype KeyCopy = KeyCopy(tried: seq<string>, progress: seq<string>, error: Option<string>)

  /** `copyNext`: adds the keys one at a time, each only after the previous one
      succeeded; `results[i]` is the error, if any, of adding `keys[i]`. It
      succeeds once every key is added and stops at the first failure. */
  function CopyKeys(keys: seq<string>, results: seq<Option<string>>): (o: KeyCopy)
    requires |results| == |keys|
    ensures var k := FirstFailure(results);
            && (k == |keys| ==> o == KeyCopy(keys, Repeat(KeyAdded, |keys|), None))
            && (k < |keys| ==> o == KeyCopy(keys[..k + 1], Repeat(KeyAdded, k), results[k]))
    decreases |keys|
  {
    if |keys| == 0 then
      KeyCopy([], [], None)
    else if results[0].Some? then
      KeyCopy([keys[0]], [], results[0])
    else
      var rest := CopyKeys(keys[1..], results[1..]);
      assert [keys[0]] + keys[1..] == keys;
      var k := FirstFailure(results[1..]);
      assert k < |keys| - 1 ==> [keys[0]] + keys[1..][..k + 1] == keys[..k + 2];
      KeyCopy([keys[0]] + rest.tried, [KeyAdded] + rest.progress, rest.error)
  }

  // ---------------------------------------------------------------------------
  // Redaction of printed output

  const Secret := "\"pass\""
  const Hidden := "<OUTPUT HIDDEN>"

  /** A line that mentions `"pass"` (with the quotes) is replaced as a whole. */
  function Redact(line: string): (r: string)
    ensures Contains(line, Secret) ==> r == Hidden
    ensures !Contains(line, Secret) ==> r == line
    ensures !Contains(r, Secret)
  {
    if Contains(line, Secret) then
      MissingFirstCharacter(Hidden, Secret);
      Hidden
    else
      line
  }

  /** Redacting twice is redacting once. */
  lemma RedactIdempotent(line: string)
    ensures Redact(Redact(line)) == Redact(line)
  {
  }

  /** The two listeners that print: `progress` lines and `build_output` lines. */
  datatype Channel = ProgressChannel | BuildOutputChannel {
    function Tag(): string {
      match this
      case ProgressChannel => "PR: "
      case BuildOutputChannel => "BO: "
    }
  }

  /** The line a listener prints for `d`. */
  function Shown(ch: Channel, d: string): (r: string)
    ensures r == ch.Tag() + Redact(d)
    ensures !Contains(r, Secret)
  {
    var tag := ch.Tag();
    assert '"' !in tag by {
      assert tag == "PR: " || tag == "BO: ";
    }
    var r := tag + Redact(d);
    PrefixKeepsAbsence(tag, Redact(d), Secret);
    r
  }

  function ShownAll(ch: Channel, ds: seq<string>): (rs: seq<string>)
    ensures |rs| == |ds|
    ensures forall i :: 0 <= i < |rs| ==> rs[i] == Shown(ch, ds[i])
  {
    if |ds| == 0 then [] else [Shown(ch, ds[0])] + ShownAll(ch, ds[1..])
  }

  lemma NoSecretAppend(a: seq<string>, b: seq<string>)
    requires forall i :: 0 <= i < |a| ==> !Contains(a[i], Secret)
    requires forall i :: 0 <= i < |b| ==> !Contains(b[i], Secret)
    ensures forall i :: 0 <= i < |a + b| ==> !Contains((a + b)[i], Secret)
  {
    forall i | 0 <= i < |a + b| ensures !Contains((a + b)[i], Secret) {
      if i < |a| { assert (a + b)[i] == a[i]; } else { assert (a + b)[i] == b[i - |a|]; }
    }
  }

  // ---------------------------------------------------------------------------
  // The step chain

  datatype DevStep = Setup | Create | PushCode | UpdateDns

  const AllSteps := [Setup, Create, PushCode, UpdateDns]

  /** The outcomes of the foreign calls one run depends on. */
  datatype DevInputs = DevInputs(
    sha: Result<string, string>,      // git.currentSHA of the working directory
    createError: Option<string>,      // the `awsbox create` command's error
    keyResults: seq<Option<string>>,  // the error, if any, of adding each additional key
    buildOutput: seq<string>,         // git push's build output lines
    pushError: Option<string>,        // git push's error
    dnsError: Option<string>)         // dns.updateRecord's error (deleteRecord's is ignored)

  /** Whether a step calls back without an error. */
  predicate StepSucceeds(inputs: DevInputs, step: DevStep) {
    match step
    case Setup => inputs.sha.Success?
    case Create => inputs.createError.None? && FirstFailure(inputs.keyResults) == |inputs.keyResults|
    case PushCode => inputs.pushError.None?
    case UpdateDns => inputs.dnsError.None?
  }

  /** The trace of one run: the steps started, the VM name requested, the
      lines printed by the two listeners, and the fatal error, if any. */
  datatype DevRun = DevRun(steps: seq<DevStep>, vmName: Option<string>, printed: seq<string>, fatal: Option<string>)

  /** The process exit code: `checkerr` exits with 1; a clean run ends with 0. */
  function ProcessExit(run: DevRun): int {
    if run.fatal.Some? then 1 else 0
  }

  /** One run of deploy_dev.js. */
  function RunDev(env: Option<string>, inputs: DevInputs): (run: DevRun)
    requires |inputs.keyResults| == |Keypairs(env)|
    ensures 1 <= |run.steps| <= |AllSteps| && run.steps == AllSteps[..|run.steps|]
    ensures forall j :: 0 <= j < |run.steps| - 1 ==> StepSucceeds(inputs, run.steps[j])
    ensures run.fatal.None? <==> StepSucceeds(inputs, run.steps[|run.steps| - 1])
    ensures |run.steps| < |AllSteps| ==> run.fatal.Some?
    ensures run.fatal.None? <==> forall step :: StepSucceeds(inputs, step)
    ensures run.vmName.Some? <==> Create in run.steps
    ensures run.vmName.Some? ==> inputs.sha.Success? && run.vmName.value == VmName(inputs.sha.value)
    ensures forall i :: 0 <= i < |run.printed| ==> !Contains(run.printed[i], Secret)
  {
    assert AllSteps[..1] == [Setup] && AllSteps[..2] == [Setup, Create] && AllSteps[..3] == [Setup, Create, PushCode];
    if inputs.sha.Failure? then
      DevRun([Setup], None, [], Some(inputs.sha.error))
    else
      var name := VmName(inputs.sha.value);
      if inputs.createError.Some? then
        DevRun([Setup, Create], Some(name), [], inputs.createError)
      else
        var keys := CopyKeys(Keypairs(env), inputs.keyResults);
        assert keys.error.None? <==> StepSucceeds(inputs, Create);
        var keyLines := ShownAll(ProgressChannel, keys.progress);
        if keys.error.Some? then
          DevRun([Setup, Create], Some(name), keyLines, keys.error)
        else
          var printed := keyLines + ShownAll(BuildOutputChannel, inputs.buildOutput);
          assert forall i :: 0 <= i < |printed| ==> !Contains(printed[i], Secret) by {
            NoSecretAppend(keyLines, ShownAll(BuildOutputChannel, inputs.buildOutput));
          }
          if inputs.pushError.Some? then
            DevRun([Setup, Create, PushCode], Some(name), printed, inputs.pushError)
          else if inputs.dnsError.Some? then
            DevRun(AllSteps, Some(name), printed, inputs.dnsError)
          else
            DevRun(AllSteps, Some(name), printed, None)
  }

  /** An error at any step aborts the run: no later step starts. */
  lemma ErrorAbortsLaterSteps(env: Option<string>, inputs: DevInputs, j: nat)
    requires |inputs.keyResults| == |Keypairs(env)|
    requires j < |AllSteps| && !StepSucceeds(inputs, AllSteps[j])
    ensures |RunDev(env, inputs).steps| <= j + 1
    ensures ProcessExit(RunDev(env, inputs)) == 1
  {
  }
}

=== FILE: deploy_server.dfy ===
/** deploy_server.js, the pure parts: the events the deployer emits, the
    chunk-to-lines splitter for child-process output, the selection of stale
    VMs to decommission after a deployment, and the status string served at
    `/`. The check/deploy state machine is in module Deployer. */
module DeployServer {
  import opened Wrappers
  import opened Strings

  /** The host whose live revision is compared with the latest one. */
  const DeployHostname := "login.dev.anosrep.org"

  /** The payload of an `error` event: a message, or the boolean `true` that
      `_deployNewCode` passes on when the deploy process exits non-zero. */
  datatype ErrorValue = Message(text: string) | ExitFailure

  /** The events of the deployer, in the order they are emitted. */
  datatype Event =
    | Info(text: string)
    | Warn(text: string)
    | Error(error: ErrorValue)
    | Progress(line: string)
    | DeploymentBegins(sha: string)
    | DeploymentComplete(sha: string)

  // ---------------------------------------------------------------------------
  // splitAndEmit

  /** What every emitted `progress` line looks like: non-empty, without a
      newline, and its own trim. */
  predicate CleanProgress(e: Event) {
    && e.Progress?
    && e.line != ""
    && '\n' !in e.line
    && Trimmed(e.line)
  }

  predicate NoNewlines(lines: seq<string>) {
    forall j :: 0 <= j < |lines| ==> '\n' !in lines[j]
  }

  /** The events for one line: its trimmed text, unless that is empty. */
  function LineEvents(line: string): (es: seq<Event>)
    ensures |es| <= 1
    ensures |es| == 1 <==> Trim(line) != ""
    ensures forall i :: 0 <= i < |es| ==> es[i] == Progress(Trim(line))
  {
    var t := Trim(line);
    if t != "" then [Progress(t)] else []
  }

  /** A line without a newline stays without one once trimmed. */
  lemma TrimmedLine(line: string)
    ensures '\n' !in line ==> '\n' !in Trim(line)
  {
    TrimKeepsCharacters(line, '\n');
  }

  /** `f` applied to each element, the results concatenated in order. */
  function ConcatMap<T, U>(f: T -> seq<U>, xs: seq<T>): seq<U>
    decreases |xs|
  {
    if |xs| == 0 then [] else f(xs[0]) + ConcatMap(f, xs[1..])
  }

  lemma {:induction false} ConcatMapAppend<T, U>(f: T -> seq<U>, a: seq<T>, b: seq<T>)
    ensures ConcatMap(f, a + b) == ConcatMap(f, a) + ConcatMap(f, b)
    decreases |a|
  {
    if |a| == 0 {
      assert a + b == b;
    } else {
      assert (a + b)[0] == a[0];
      assert (a + b)[1..] == a[1..] + b;
      ConcatMapAppend(f, a[1..], b);
    }
  }

  /** One `progress` event per line, trimmed, skipping lines that trim to nothing. */
  function ProgressLines(lines: seq<string>): (es: seq<Event>)
    requires NoNewlines(lines)
    ensures |es| <= |lines|
    ensures forall i :: 0 <= i < |es| ==> CleanProgress(es[i])
  {
    ProgressLinesClean(lines);
    ConcatMap(LineEvents, lines)
  }

  predicate AllClean(es: seq<Event>) {
    forall i :: 0 <= i < |es| ==> CleanProgress(es[i])
  }

  lemma LineEventsClean(line: string)
    requires '\n' !in line
    ensures AllClean(LineEvents(line))
  {
    TrimmedLine(line);
  }

  lemma AllCleanAppend(x: seq<Event>, y: seq<Event>)
    requires AllClean(x) && AllClean(y)
    ensures AllClean(x + y)
  {
    forall i | 0 <= i < |x + y| ensures CleanProgress((x + y)[i]) {
      if i < |x| { assert (x + y)[i] == x[i]; } else { assert (x + y)[i] == y[i - |x|]; }
    }
  }

  lemma {:induction false} ProgressLinesClean(lines: seq<string>)
    requires NoNewlines(lines)
    ensures |ConcatMap(LineEvents, lines)| <= |lines|
    ensures AllClean(ConcatMap(LineEvents, lines))
    decreases |lines|
  {
    if |lines| > 0 {
      assert NoNewlines(lines[1..]);
      ProgressLinesClean(lines[1..]);
      var x, y := LineEvents(lines[0]), ConcatMap(LineEvents, lines[1..]);
      LineEventsClean(lines[0]);
      AllCleanAppend(x, y);
      assert ConcatMap(LineEvents, lines) == x + y;
    }
  }

  lemma ProgressLinesAppend(a: seq<string>, b: seq<string>)
    requires NoNewlines(a) && NoNewlines(b)
    ensures ProgressLines(a + b) == ProgressLines(a) + ProgressLines(b)
  {
    assert NoNewlines(a + b);
    ConcatMapAppend(LineEvents, a, b);
  }

  /** `splitAndEmit(chunk)` for a chunk of child-process output. */
  function SplitAndEmit(chunk: string): (es: seq<Event>)
    ensures forall i :: 0 <= i < |es| ==> CleanProgress(es[i])
  {
    ProgressLines(Split(chunk, '\n'))
  }

  /** A chunk with no newline yields its trimmed text, unless that is empty. */
  lemma SplitAndEmitOneLine(line: string)
    requires '\n' !in line
    ensures SplitAndEmit(line) == if AllSpace(line) then [] else [Progress(Trim(line))]
  {
    SplitNoSeparator(line, '\n');
    TrimEmptyIffAllSpace(line);
    assert [line][1..] == [];
    assert ConcatMap(LineEvents, [line]) == LineEvents(line) + ConcatMap(LineEvents, []);
  }

  /** Lines are handled independently: the events for two lines joined by a
      newline are the events for the first followed by those for the second. */
  lemma SplitAndEmitLines(a: string, b: string)
    ensures SplitAndEmit(a + "\n" + b) == SplitAndEmit(a) + SplitAndEmit(b)
  {
    SplitAround(a, b, '\n');
    ProgressLinesAppend(Split(a, '\n'), Split(b, '\n'));
  }

  // ---------------------------------------------------------------------------
  // _cleanUpOldVMs

  /** A VM as listed by the provisioning tool. */
  datatype Vm = Vm(name: string, instanceId: string)

  /** The VMs to decommission, in listing order: those whose name contains
      the deploy host name and does not contain the latest sha. */
  function SelectStale(vms: seq<Vm>, latest: string): (stale: seq<Vm>)
    ensures |stale| <= |vms|
    ensures forall v :: v in stale <==> v in vms && Contains(v.name, DeployHostname) && !Contains(v.name, latest)
    decreases |vms|
  {
    if |vms| == 0 then
      []
    else
      var v := vms[0];
      var rest := SelectStale(vms[1..], latest);
      assert forall w :: w in vms <==> w == v || w in vms[1..] by {
        assert vms == [v] + vms[1..];
      }
      if Contains(v.name, DeployHostname) && !Contains(v.name, latest) then [v] + rest else rest
  }

  /** Selection keeps the listing order: it distributes over concatenation. */
  lemma {:induction false} SelectStaleAppend(a: seq<Vm>, b: seq<Vm>, latest: string)
    ensures SelectStale(a + b, latest) == SelectStale(a, latest) + SelectStale(b, latest)
    decreases |a|
  {
    if |a| == 0 {
      assert a + b == b;
    } else {
      assert (a + b)[0] == a[0];
      assert (a + b)[1..] == a[1..] + b;
      SelectStaleAppend(a[1..], b, latest);
    }
  }

  /** What one cleanup run does synchronously with the outcomes of
      `git.currentSHA` and `vm.list`: the `info` events and the instances it
      asks to destroy. */
  datatype Cleanup = Cleanup(events: seq<Event>, destroy: seq<string>)

  function Decommission(stale: seq<Vm>): (c: Cleanup)
    ensures |c.events| == |c.destroy| == |stale|
    ensures forall i :: 0 <= i < |stale| ==> c.destroy[i] == stale[i].instanceId
    ensures forall i :: 0 <= i < |c.events| ==> c.events[i].Info?
    ensures forall i :: 0 <= i < |stale| ==>
              c.events[i] == Info("decommissioning VM: " + stale[i].name + " - " + stale[i].instanceId)
  {
    if |stale| == 0 then
      Cleanup([], [])
    else
      var v := stale[0];
      var rest := Decommission(stale[1..]);
      Cleanup([Info("decommissioning VM: " + v.name + " - " + v.instanceId)] + rest.events,
              [v.instanceId] + rest.destroy)
  }

  /** `_cleanUpOldVMs`: a failure of either lookup is reported as `info` and
      nothing is destroyed; otherwise one `info` per instance destroyed
      (which instances, `CleanUpDestroysStale` says). */
  function CleanUp(latest: Result<string, string>, listing: Result<seq<Vm>, string>): (c: Cleanup)
    ensures latest.Failure? ==> c == Cleanup([Info(latest.error)], [])
    ensures latest.Success? && listing.Failure? ==> c == Cleanup([Info(listing.error)], [])
    ensures latest.Success? && listing.Success? ==> |c.events| == |c.destroy| <= |listing.value|
    ensures forall i :: 0 <= i < |c.events| ==> c.events[i].Info?
  {
    match latest
    case Failure(e) => Cleanup([Info(e)], [])
    case Success(sha) =>
      match listing
      case Failure(e) => Cleanup([Info(e)], [])
      case Success(vms) => Decommission(SelectStale(vms, sha))
  }

  /** After both lookups succeed, every stale VM is destroyed and only stale
      VMs are: those listed whose name contains the deploy host name and not
      the latest sha. */
  lemma CleanUpDestroysStale(sha: string, vms: seq<Vm>)
    ensures var c := CleanUp(Success(sha), Success(vms));
            && (forall v :: v in vms && Contains(v.name, DeployHostname) && !Contains(v.name, sha) ==>
                               v.instanceId in c.destroy)
            && (forall i :: 0 <= i < |c.destroy| ==>
                  exists v :: v in vms && v.instanceId == c.destroy[i]
                              && Contains(v.name, DeployHostname) && !Contains(v.name, sha))
  {
    var stale := SelectStale(vms, sha);
    var c := Decommission(stale);
    assert CleanUp(Success(sha), Success(vms)) == c;
    forall v | v in stale ensures v.instanceId in c.destroy {
      var i :| 0 <= i < |stale| && stale[i] == v;
      assert c.destroy[i] == v.instanceId;
    }
    forall i | 0 <= i < |c.destroy|
      ensures exists v :: v in vms && v.instanceId == c.destroy[i]
                          && Contains(v.name, DeployHostname) && !Contains(v.name, sha)
    {
      assert stale[i] in stale;
    }
  }

  /** The report of one `vm.destroy` callback: always `info`, never an error. */
  function DestroyReport(outcome: Result<string, string>): (e: Event)
    ensures e.Info?
    ensures outcome.Failure? ==> e.text == "decomissioning failed: " + outcome.error
    ensures outcome.Success? ==> e.text == "decomissioning succeeded of " + outcome.value
  {
    match outcome
    case Failure(err) => Info("decomissioning failed: " + err)
    case Success(r) => Info("decomissioning succeeded of " + r)
  }

  // ---------------------------------------------------------------------------
  // The status page

  /** The text served at `/`: "idle" unless a truthy `deployingSHA` is set. */
  function Status(deployingSha: Option<string>): (r: string)
    ensures r == "idle" <==> !Truthy(deployingSha)
    ensures Truthy(deployingSha) ==> r == "deploying " + deployingSha.value
  {
    if Truthy(deployingSha) then
      var r := "deploying " + deployingSha.value;
      assert r[0] != "idle"[0];
      r
    else
      "idle"
  }
}

=== FILE: deployer.dfy ===
/** The check/deploy decision machine of deploy_server.js: the `Deployer`
    object together with the module-level `deployingSHA` and the listeners
    deploy_server.js attaches to it.

    The deployer is driven by callbacks. The state records every callback
    that is still to fire: those of the checks in flight, and those of the
    VM cleanups started after a deployment. Each input is one callback firing
    (or one external call of `checkForUpdates`), and each transition returns
    the new state and the events emitted, in order. Listeners run
    synchronously inside `emit`, so their effects (setting `deployingSHA`,
    arming the retry timer, re-checking) happen in the middle of a
    transition, exactly where the source has them.

    Normally at most one check is in flight. A timed-out DNS request breaks
    that: `latestSha` then calls back twice, and its second call starts a
    second deployment alongside the first; the pending callbacks are a
    sequence so that the model follows the program there too. */
module Deployer {
  import opened Wrappers
  import opened Strings
  import opened LatestSha
  import opened DeployServer

  const CheckingMessage := "checking for updates"
  const UpToDateMessage := "up to date"
  const NpmFailedMessage := "can't npm install to prepare to run deploy_dev"

  /** A pending callback of a check. */
  datatype Awaiting =
    | Pull                       // git.pull
    | LocalSha                   // git.currentSHA of the working copy
    | RunningSha(latest: string) // latestSha of the deploy host
    | RequestEnd(latest: string) // the timed-out DNS request's `end`, which calls latestSha back again
    | Install(latest: string)    // exit of `npm install`
    | Deploy(latest: string)     // exit of deploy_dev.js
  {
    /** The sha being deployed, once `deployment_begins` has fired for it. */
    function Deploying(): Option<string> {
      match this
      case Install(latest) => Some(latest)
      case Deploy(latest) => Some(latest)
      case _ => None
    }
  }

  /** A pending callback of `_cleanUpOldVMs`. */
  datatype CleanupWait =
    | CleanupSha            // git.currentSHA of the working copy
    | VmList(latest: string) // vm.list
    | Destroy(id: string)   // vm.destroy of one instance

  /** `busy` and `deployingSha` are the source's `_busy` and `deployingSHA`;
      `pending` holds the callbacks of the checks in flight and `cleanups`
      those of the cleanups; `retries` counts the 2-minute retry timers
      armed and not yet fired. */
  datatype State = State(busy: bool, pending: seq<Awaiting>, deployingSha: Option<string>, retries: nat,
                         cleanups: seq<CleanupWait>)

  const Init := State(false, [], None, 0, [])

  /** The deployment in flight when at most one check is. */
  function InFlight(pending: seq<Awaiting>): Option<string> {
    if |pending| == 1 then pending[0].Deploying() else None
  }

  /** The single-flight invariant: at most one check is in flight, and then
      `busy` is set and no second resolver call is due; `deployingSHA` names
      exactly the deployment in flight. */
  predicate Valid(s: State) {
    && |s.pending| <= 1
    && (|s.pending| == 1 ==> s.busy && !s.pending[0].RequestEnd?)
    && s.deployingSha == InFlight(s.pending)
  }

  /** `busy` is set but no callback will ever clear it. */
  predicate Wedged(s: State) {
    s.busy && s.pending == []
  }

  /** A process exit code; None when the process was killed by a signal. */
  type ExitCode = Option<int>

  predicate ExitOk(code: ExitCode) {
    code == Some(0)
  }

  /** The inputs. A callback is named by its position in `pending` (or in
      `cleanups` for those of the cleanup); an input naming a position that
      holds no such callback changes nothing. */
  datatype Input =
    | Check                                            // checkForUpdates: at startup, every 15 minutes, GET or POST /check
    | RetryTimer                                       // a 2-minute timer armed by the error listener fires
    | PullProgress(line: string)                       // git.pull reports a progress line
    | PullDone(slot: nat, pullError: Option<string>)   // git.pull calls back
    | LocalShaDone(slot: nat, local: Result<string, string>)     // git.currentSHA calls back
    | RunningShaDone(slot: nat, running: Result<string, string>) // latestSha calls back, once
    | RunningShaTimedOut(slot: nat)                    // latestSha calls back with the DNS timeout; `end` will call again
    | RequestEnded(slot: nat)                          // the timed-out request ends: latestSha calls back a second time
    | ChildOutput(chunk: string)                       // stdout or stderr data of npm or deploy_dev.js
    | InstallExit(slot: nat, installCode: ExitCode)    // npm install exits
    | DeployExit(slot: nat, deployCode: ExitCode)      // deploy_dev.js exits
    | CleanupShaDone(slot: nat, current: Result<string, string>)  // the cleanup's git.currentSHA calls back
    | VmListDone(slot: nat, listing: Result<seq<Vm>, string>)     // vm.list calls back
    | DestroyDone(slot: nat, destroyed: Result<string, string>)   // vm.destroy calls back

  /** The new state, the events emitted in order, and whether `_cleanUpOldVMs`
      was started. */
  datatype Transition = Transition(next: State, events: seq<Event>, cleanup: bool)

  function Quiet(s: State): Transition {
    Transition(s, [], false)
  }

  /** A sequence without its element at position `i`. */
  function Without<T>(xs: seq<T>, i: nat): (r: seq<T>)
    requires i < |xs|
    ensures |r| == |xs| - 1
    ensures forall k :: 0 <= k < i ==> r[k] == xs[k]
    ensures forall k :: i <= k < |r| ==> r[k] == xs[k + 1]
    ensures forall x :: x in r ==> x in xs
  {
    xs[..i] + xs[i + 1..]
  }

  /** The callback at position `i` of `pending` has fired. */
  function Fired(s: State, i: nat): State
    requires i < |s.pending|
  {
    s.(pending := Without(s.pending, i))
  }

  // ---------------------------------------------------------------------------
  // checkForUpdates and its callback

  /** `checkForUpdates`: a no-op while busy; otherwise it sets `busy`, says so,
      and starts the pull. */
  function CheckForUpdates(s: State): (t: Transition)
    ensures s.busy ==> t == Quiet(s)
    ensures !s.busy ==> && t.events == [Info(CheckingMessage)]
                        && t.next == s.(busy := true, pending := s.pending + [Pull])
    ensures !t.cleanup
  {
    if s.busy then Quiet(s)
    else Transition(s.(busy := true, pending := s.pending + [Pull]), [Info(CheckingMessage)], false)
  }

  /** `emit`: the event is recorded, then the listeners of deploy_server.js
      run. `deployment_begins` sets `deployingSHA`; `deployment_complete`
      clears it and calls `checkForUpdates`; `error` clears it and arms the
      retry timer. */
  function Emit(s: State, e: Event): (t: Transition)
    ensures |t.events| >= 1 && t.events[0] == e && !t.cleanup
    ensures t.next.deployingSha == if e.DeploymentBegins? then Some(e.sha)
                                   else if e.DeploymentComplete? || e.Error? then None
                                   else s.deployingSha
    ensures t.next.retries == s.retries + (if e.Error? then 1 else 0)
    ensures t.next.busy == (s.busy || e.DeploymentComplete?)
    ensures t.next.pending == s.pending + (if e.DeploymentComplete? && !s.busy then [Pull] else [])
    ensures t.next.cleanups == s.cleanups
    ensures e.DeploymentComplete? && s.busy ==> t.events == [e]
    ensures e.DeploymentComplete? && !s.busy ==> t.events == [e, Info(CheckingMessage)]
    ensures !e.DeploymentComplete? ==> t.events == [e]
  {
    match e
    case DeploymentBegins(sha) => Transition(s.(deployingSha := Some(sha)), [e], false)
    case DeploymentComplete(_) =>
      var recheck := CheckForUpdates(s.(deployingSha := None));
      Transition(recheck.next, [e] + recheck.events, false)
    case Error(_) => Transition(s.(deployingSha := None, retries := s.retries + 1), [e], false)
    case _ => Transition(s, [e], false)
  }

  /** `checkForUpdates`'s callback: an error is emitted first, then `busy` is
      cleared, on both paths. */
  function CheckDone(s: State, err: Option<ErrorValue>): (t: Transition)
    ensures !t.next.busy && t.next.pending == s.pending && t.next.cleanups == s.cleanups
    ensures err.None? ==> t.events == [] && t.next == s.(busy := false)
    ensures err.Some? ==> && t.events == [Error(err.value)]
                          && t.next == s.(busy := false, deployingSha := None, retries := s.retries + 1)
  {
    match err
    case None => Transition(s.(busy := false), [], false)
    case Some(e) =>
      var emitted := Emit(s, Error(e));
      Transition(emitted.next.(busy := false), emitted.events, false)
  }

  // ---------------------------------------------------------------------------
  // _pullLatest. Each handler receives the state with the callback that
  // fired already taken out of `pending`.

  /** git.pull calls back: an error ends the check, otherwise the local sha is read. */
  function OnPullDone(s: State, pullError: Option<string>): (t: Transition)
    ensures pullError.Some? ==> && t.events == [Error(Message(pullError.value))]
                                && t.next == s.(busy := false, deployingSha := None, retries := s.retries + 1)
    ensures pullError.None? ==> t == Quiet(s.(pending := s.pending + [LocalSha]))
  {
    match pullError
    case Some(e) => CheckDone(s, Some(Message(e)))
    case None => Quiet(s.(pending := s.pending + [LocalSha]))
  }

  /** git.currentSHA calls back: an error ends the check, otherwise the latest
      sha is announced and the running sha is asked for. */
  function OnLocalSha(s: State, local: Result<string, string>): (t: Transition)
    ensures local.Failure? ==> && t.events == [Error(Message(local.error))]
                               && t.next == s.(busy := false, deployingSha := None, retries := s.retries + 1)
    ensures local.Success? ==>
              t == Transition(s.(pending := s.pending + [RunningSha(local.value)]),
                              [Info("latest available sha is " + local.value)], false)
  {
    match local
    case Failure(e) => CheckDone(s, Some(Message(e)))
    case Success(latest) =>
      Transition(s.(pending := s.pending + [RunningSha(latest)]), [Info("latest available sha is " + latest)], false)
  }

  /** The `info` event `_getLatestRunningSHA` emits for the resolver's answer. */
  function RunningReport(running: Result<string, string>): (e: Event)
    ensures e.Info?
    ensures running.Failure? ==> e.text == "can't get current running code: " + running.error
    ensures running.Success? ==> e.text == "current running sha is: " + running.value
  {
    match running
    case Failure(e) => Info("can't get current running code: " + e)
    case Success(sha) => Info("current running sha is: " + sha)
  }

  /** Different answers of the resolver give different reports, so the log
      records exactly what the resolver answered. */
  lemma RunningReportInjective(a: Result<string, string>, b: Result<string, string>)
    ensures RunningReport(a) == RunningReport(b) <==> a == b
  {
    var failed, running := "can't get current running code: ", "current running sha is: ";
    if RunningReport(a) == RunningReport(b) {
      var ta, tb := RunningReport(a).text, RunningReport(b).text;
      if a.Failure? && b.Failure? {
        assert ta[|failed|..] == a.error;
        assert tb[|failed|..] == b.error;
      } else if a.Success? && b.Success? {
        assert ta[|running|..] == a.value;
        assert tb[|running|..] == b.value;
      } else {
        ReportsDiffer(if a.Failure? then a.error else b.error, if a.Success? then a.value else b.value);
      }
    }
  }

  /** A failure report never reads as a sha report. */
  lemma ReportsDiffer(error: string, sha: string)
    ensures "can't get current running code: " + error != "current running sha is: " + sha
  {
    assert ("can't get current running code: " + error)[1] == 'a';
    assert ("current running sha is: " + sha)[1] == 'u';
  }

  /** latestSha calls back. A resolver error is not fatal: it is reported with
      `warn`, the running sha stays undefined, which never equals the latest
      sha, and the deployment goes ahead. Equal shas end the check as up to
      date. The callback does the same however often it is called. */
  function OnRunningSha(s: State, latest: string, running: Result<string, string>): (t: Transition)
    ensures if running == Success(latest) then
              && t.events == [Info("current running sha is: " + latest), Info(UpToDateMessage)]
              && t.next == s.(busy := false)
            else
              && t.events == [RunningReport(running)]
                              + (if running.Failure? then [Warn("latest available sha is " + latest)] else [])
                              + [DeploymentBegins(latest)]
              && |t.events| >= 2
              && t.events[|t.events| - 1] == DeploymentBegins(latest)
              && t.events[0] == RunningReport(running)
              && (running.Failure? <==> Warn("latest available sha is " + latest) in t.events)
              && t.next == s.(pending := s.pending + [Install(latest)], deployingSha := Some(latest))
    ensures forall k :: 0 <= k < |t.events| ==> t.events[k].Info? || t.events[k].Warn? || t.events[k] == DeploymentBegins(latest)
    ensures !t.cleanup
  {
    var report := RunningReport(running);
    var warning := if running.Failure? then [Warn("latest available sha is " + latest)] else [];
    var runningSha := if running.Success? then Some(running.value) else None;
    if runningSha != Some(latest) then
      var begins := Emit(s.(pending := s.pending + [Install(latest)]), DeploymentBegins(latest));
      Transition(begins.next, [report] + warning + begins.events, false)
    else
      var done := CheckDone(s, None);
      Transition(done.next, [report, Info(UpToDateMessage)] + done.events, false)
  }

  /** The DNS request for the deploy host times out: latestSha calls back
      with the timeout error, and the request's `end` is still to call back. */
  function OnRunningShaTimedOut(s: State, latest: string): (t: Transition)
    ensures t.next.pending == s.pending + [RequestEnd(latest), Install(latest)]
    ensures t.events == OnRunningSha(s, latest, Failure(TimeoutError(DeployHostname))).events
  {
    OnRunningSha(s.(pending := s.pending + [RequestEnd(latest)]), latest, Failure(TimeoutError(DeployHostname)))
  }

  /** The timed-out request ends: latestSha calls back a second time, with
      no address, and the same callback runs again. */
  function OnRequestEnded(s: State, latest: string): (t: Transition)
    ensures t.next.pending == s.pending + [Install(latest)]
    ensures |t.events| >= 2 && t.events[|t.events| - 1] == DeploymentBegins(latest)
    ensures forall k :: 0 <= k < |t.events| ==> t.events[k].Info? || t.events[k].Warn? || t.events[k] == DeploymentBegins(latest)
    ensures !t.cleanup
  {
    OnRunningSha(s, latest, Failure(NoAddressError(DeployHostname)))
  }

  // ---------------------------------------------------------------------------
  // _deployNewCode

  /** npm install exits. On failure the error is emitted but the callback
      chain is abandoned: `busy` is never cleared. */
  function OnInstallExit(s: State, latest: string, code: ExitCode): (t: Transition)
    ensures !ExitOk(code) ==> && t.events == [Error(Message(NpmFailedMessage))]
                              && t.next == s.(deployingSha := None, retries := s.retries + 1)
    ensures ExitOk(code) ==> t == Quiet(s.(pending := s.pending + [Deploy(latest)]))
  {
    if !ExitOk(code) then
      Emit(s, Error(Message(NpmFailedMessage)))
    else
      Quiet(s.(pending := s.pending + [Deploy(latest)]))
  }

  /** deploy_dev.js exits. A non-zero exit is the check's error. Exit 0 emits
      `deployment_complete`, whose listener re-checks (which does nothing
      while `busy` is still set), then starts the cleanup and clears `busy`. */
  function OnDeployExit(s: State, latest: string, code: ExitCode): (t: Transition)
    ensures !t.next.busy
    ensures !ExitOk(code) ==> && t.events == [Error(ExitFailure)]
                              && t.next == s.(busy := false, deployingSha := None, retries := s.retries + 1)
                              && !t.cleanup
    ensures ExitOk(code) && s.busy ==>
              && t.events == [DeploymentComplete(latest)]
              && t.next == s.(busy := false, deployingSha := None, cleanups := s.cleanups + [CleanupSha])
              && t.cleanup
    ensures ExitOk(code) && !s.busy ==>
              && t.events == [DeploymentComplete(latest), Info(CheckingMessage)]
              && t.next == s.(pending := s.pending + [Pull], deployingSha := None, cleanups := s.cleanups + [CleanupSha])
              && t.cleanup
  {
    if !ExitOk(code) then
      CheckDone(s, Some(ExitFailure))
    else
      var complete := Emit(s, DeploymentComplete(latest));
      var cleaning := complete.next.(cleanups := complete.next.cleanups + [CleanupSha]);
      var done := CheckDone(cleaning, None);
      Transition(done.next, complete.events + done.events, true)
  }

  // ---------------------------------------------------------------------------
  // _cleanUpOldVMs. Its callbacks only ever emit `info`.

  /** The cleanup's callback at position `i` has fired. */
  function FiredCleanup(s: State, i: nat): State
    requires i < |s.cleanups|
  {
    s.(cleanups := Without(s.cleanups, i))
  }

  function Destroys(ids: seq<string>): (ws: seq<CleanupWait>)
    ensures |ws| == |ids|
    ensures forall k :: 0 <= k < |ids| ==> ws[k] == Destroy(ids[k])
  {
    seq(|ids|, k requires 0 <= k < |ids| => Destroy(ids[k]))
  }

  /** git.currentSHA calls back: an error is reported, otherwise the VMs are listed. */
  function OnCleanupSha(s: State, current: Result<string, string>): (t: Transition)
    ensures current.Failure? ==> t == Transition(s, [Info(current.error)], false)
    ensures current.Success? ==> t == Quiet(s.(cleanups := s.cleanups + [VmList(current.value)]))
  {
    match current
    case Failure(e) => Transition(s, [Info(e)], false)
    case Success(sha) => Quiet(s.(cleanups := s.cleanups + [VmList(sha)]))
  }

  /** vm.list calls back: an error is reported, otherwise each stale VM is
      announced and its destroy requested. */
  function OnVmList(s: State, latest: string, listing: Result<seq<Vm>, string>): (t: Transition)
    ensures t.events == CleanUp(Success(latest), listing).events
    ensures t.next == s.(cleanups := s.cleanups + Destroys(CleanUp(Success(latest), listing).destroy))
    ensures !t.cleanup
  {
    var c := CleanUp(Success(latest), listing);
    Transition(s.(cleanups := s.cleanups + Destroys(c.destroy)), c.events, false)
  }

  // ---------------------------------------------------------------------------
  // Retry timer, and the dispatch of inputs

  /** A retry timer fires and calls `checkForUpdates`. */
  function OnRetryTimer(s: State): (t: Transition)
    ensures s.retries == 0 ==> t == Quiet(s)
    ensures s.retries > 0 ==> t == CheckForUpdates(s.(retries := s.retries - 1))
  {
    if s.retries == 0 then Quiet(s) else CheckForUpdates(s.(retries := s.retries - 1))
  }

  // Each callback input: the handler runs when the named position holds a
  // callback of the right kind, and nothing happens otherwise.

  function FirePull(s: State, i: nat, err: Option<string>): Transition {
    if i < |s.pending| && s.pending[i] == Pull then OnPullDone(Fired(s, i), err) else Quiet(s)
  }

  function FireLocalSha(s: State, i: nat, local: Result<string, string>): Transition {
    if i < |s.pending| && s.pending[i] == LocalSha then OnLocalSha(Fired(s, i), local) else Quiet(s)
  }

  function FireRunningSha(s: State, i: nat, running: Result<string, string>): Transition {
    if i < |s.pending| && s.pending[i].RunningSha? then OnRunningSha(Fired(s, i), s.pending[i].latest, running)
    else Quiet(s)
  }

  function FireTimedOut(s: State, i: nat): Transition {
    if i < |s.pending| && s.pending[i].RunningSha? then OnRunningShaTimedOut(Fired(s, i), s.pending[i].latest)
    else Quiet(s)
  }

  function FireRequestEnd(s: State, i: nat): Transition {
    if i < |s.pending| && s.pending[i].RequestEnd? then OnRequestEnded(Fired(s, i), s.pending[i].latest)
    else Quiet(s)
  }

  function FireInstall(s: State, i: nat, code: ExitCode): Transition {
    if i < |s.pending| && s.pending[i].Install? then OnInstallExit(Fired(s, i), s.pending[i].latest, code)
    else Quiet(s)
  }

  function FireDeploy(s: State, i: nat, code: ExitCode): Transition {
    if i < |s.pending| && s.pending[i].Deploy? then OnDeployExit(Fired(s, i), s.pending[i].latest, code)
    else Quiet(s)
  }

  function FireCleanupSha(s: State, i: nat, current: Result<string, string>): Transition {
    if i < |s.cleanups| && s.cleanups[i] == CleanupSha then OnCleanupSha(FiredCleanup(s, i), current)
    else Quiet(s)
  }

  function FireVmList(s: State, i: nat, listing: Result<seq<Vm>, string>): Transition {
    if i < |s.cleanups| && s.cleanups[i].VmList? then OnVmList(FiredCleanup(s, i), s.cleanups[i].latest, listing)
    else Quiet(s)
  }

  function FireDestroy(s: State, i: nat, destroyed: Result<string, string>): Transition {
    if i < |s.cleanups| && s.cleanups[i].Destroy? then Transition(FiredCleanup(s, i), [DestroyReport(destroyed)], false)
    else Quiet(s)
  }

  /** Whether the callback an input names is the one at its position: a
      callback fires only while it is pending. Checks, timers and output are
      always due. */
  predicate Due(s: State, input: Input) {
    match input
    case PullDone(i, _) => i < |s.pending| && s.pending[i] == Pull
    case LocalShaDone(i, _) => i < |s.pending| && s.pending[i] == LocalSha
    case RunningShaDone(i, _) => i < |s.pending| && s.pending[i].RunningSha?
    case RunningShaTimedOut(i) => i < |s.pending| && s.pending[i].RunningSha?
    case RequestEnded(i) => i < |s.pending| && s.pending[i].RequestEnd?
    case InstallExit(i, _) => i < |s.pending| && s.pending[i].Install?
    case DeployExit(i, _) => i < |s.pending| && s.pending[i].Deploy?
    case CleanupShaDone(i, _) => i < |s.cleanups| && s.cleanups[i] == CleanupSha
    case VmListDone(i, _) => i < |s.cleanups| && s.cleanups[i].VmList?
    case DestroyDone(i, _) => i < |s.cleanups| && s.cleanups[i].Destroy?
    case _ => true
  }

  /** One input, dispatched to its handler. */
  function Step(s: State, input: Input): Transition {
    match input
    case Check => CheckForUpdates(s)
    case RetryTimer => OnRetryTimer(s)
    case PullProgress(line) =>
      if Pull in s.pending then Transition(s, [Progress(line)], false) else Quiet(s)
    case PullDone(i, err) => FirePull(s, i, err)
    case LocalShaDone(i, local) => FireLocalSha(s, i, local)
    case RunningShaDone(i, running) => FireRunningSha(s, i, running)
    case RunningShaTimedOut(i) => FireTimedOut(s, i)
    case RequestEnded(i) => FireRequestEnd(s, i)
    case ChildOutput(chunk) => Transition(s, SplitAndEmit(chunk), false)
    case InstallExit(i, code) => FireInstall(s, i, code)
    case DeployExit(i, code) => FireDeploy(s, i, code)
    case CleanupShaDone(i, current) => FireCleanupSha(s, i, current)
    case VmListDone(i, listing) => FireVmList(s, i, listing)
    case DestroyDone(i, destroyed) => FireDestroy(s, i, destroyed)
  }

  /** Each input runs only the handler of the callback it names: one naming
      a position that holds no callback of its kind changes nothing. Output
      changes no state: `git pull`'s lines become `progress` only while the
      pull is pending, and a child's chunk becomes its split lines. */
  lemma StepWhenDue(s: State, input: Input)
    ensures !Due(s, input) ==> Step(s, input) == Quiet(s)
    ensures input.PullProgress? ==>
              && Step(s, input).next == s
              && (Step(s, input).events == [Progress(input.line)] <==> Pull in s.pending)
    ensures input.ChildOutput? ==> Step(s, input) == Transition(s, SplitAndEmit(input.chunk), false)
  {
    match input
    case PullDone(i, err) =>
    case LocalShaDone(i, local) =>
    case RunningShaDone(i, running) =>
    case RunningShaTimedOut(i) =>
    case RequestEnded(i) =>
    case InstallExit(i, code) =>
    case DeployExit(i, code) =>
    case CleanupShaDone(i, current) =>
    case VmListDone(i, listing) =>
    case DestroyDone(i, destroyed) =>
    case _ =>
  }

  /** Without a resolver timeout, every step keeps the invariant. */
  lemma StepPreservesValid(s: State, input: Input)
    requires Valid(s) && !input.RunningShaTimedOut?
    ensures Valid(Step(s, input).next)
  {
    match input
    case PullDone(i, err) =>
      if i < |s.pending| && s.pending[i] == Pull { FiredOnly(s, i); }
    case LocalShaDone(i, local) =>
      if i < |s.pending| && s.pending[i] == LocalSha { FiredOnly(s, i); }
    case RunningShaDone(i, running) =>
      if i < |s.pending| && s.pending[i].RunningSha? { FiredOnly(s, i); }
    case InstallExit(i, code) =>
      if i < |s.pending| && s.pending[i].Install? { FiredOnly(s, i); }
    case DeployExit(i, code) =>
      if i < |s.pending| && s.pending[i].Deploy? { FiredOnly(s, i); }
    case _ =>
  }

  /** Under the invariant, the callback that fires is the only one pending. */
  lemma FiredOnly(s: State, i: nat)
    requires Valid(s) && i < |s.pending|
    ensures i == 0 && Fired(s, i).pending == [] && s.busy
  {
  }

  /** A step that neither begins nor completes a deployment and starts no cleanup. */
  predicate Routine(t: Transition) {
    && !t.cleanup
    && forall k :: 0 <= k < |t.events| ==> !t.events[k].DeploymentBegins? && !t.events[k].DeploymentComplete?
  }

  /** Only the resolver's callbacks and the deploy process's exit can begin
      or complete a deployment or start the cleanup. */
  lemma RoutineStep(s: State, input: Input)
    requires !input.RunningShaDone? && !input.RunningShaTimedOut? && !input.RequestEnded? && !input.DeployExit?
    ensures Routine(Step(s, input))
  {
    match input
    case PullDone(i, err) =>
      assert Step(s, input) == FirePull(s, i, err);
    case LocalShaDone(i, local) =>
      assert Step(s, input) == FireLocalSha(s, i, local);
    case InstallExit(i, code) =>
      assert Step(s, input) == FireInstall(s, i, code);
    case VmListDone(i, listing) =>
      assert Step(s, input) == FireVmList(s, i, listing);
    case CleanupShaDone(i, current) =>
      assert Step(s, input) == FireCleanupSha(s, i, current);
    case DestroyDone(i, destroyed) =>
      assert Step(s, input) == FireDestroy(s, i, destroyed);
    case _ =>
  }

  /** `deployment_complete` is emitted only by a deploy process exiting with
      code 0, for the sha whose deployment that process was running; it is
      the only step that starts the cleanup. */
  lemma CompleteOnlyOnCleanExit(s: State, input: Input, sha: string)
    requires DeploymentComplete(sha) in Step(s, input).events || Step(s, input).cleanup
    ensures input.DeployExit? && ExitOk(input.deployCode)
    ensures input.slot < |s.pending| && s.pending[input.slot].Deploy?
    ensures DeploymentComplete(sha) in Step(s, input).events ==> s.pending[input.slot] == Deploy(sha)
  {
    match input
    case DeployExit(i, code) =>
    case RunningShaDone(i, running) =>
    case RunningShaTimedOut(i) =>
    case RequestEnded(i) =>
    case _ =>
      RoutineStep(s, input);
  }

  /** A deployment begins only when the resolver answers with something
      other than the latest sha: an error, a timeout, or the second call
      after a timeout. */
  lemma BeginsOnlyOnDrift(s: State, input: Input, sha: string)
    requires DeploymentBegins(sha) in Step(s, input).events
    ensures || (input.RunningShaDone? && input.running != Success(sha))
            || input.RunningShaTimedOut?
            || input.RequestEnded?
    ensures input.slot < |s.pending|
    ensures input.RequestEnded? ==> s.pending[input.slot] == RequestEnd(sha)
    ensures !input.RequestEnded? ==> s.pending[input.slot] == RunningSha(sha)
  {
    match input
    case DeployExit(i, code) =>
    case RunningShaDone(i, running) =>
    case RunningShaTimedOut(i) =>
    case RequestEnded(i) =>
    case _ =>
      RoutineStep(s, input);
  }
}

=== FILE: deployer_trace.dfy ===
/** Runs of the deployer over sequences of inputs, and what they guarantee:
    as long as no DNS request for the deploy host times out, deployments never
    overlap and the status page agrees with the event log; a timeout starts a
    second deployment while the first is open; in every run each
    `deployment_complete` follows its `deployment_begins`; an up-to-date check
    leaves the state as it was, and a failed `npm install` leaves the
    deployer busy for good. */
module DeployerTrace {
  import opened Wrappers
  import opened Strings
  import opened LatestSha
  import opened DeployServer
  import opened Deployer

  /** The final state and the whole event log of a run. */
  datatype Trace = Trace(final: State, log: seq<Event>)

  /** Feeds the inputs one at a time to a transition function, collecting
      the events. */
  function Fold(step: (State, Input) -> Transition, s: State, inputs: seq<Input>): Trace
    decreases |inputs|
  {
    if |inputs| == 0 then
      Trace(s, [])
    else
      var t := step(s, inputs[0]);
      var rest := Fold(step, t.next, inputs[1..]);
      Trace(rest.final, t.events + rest.log)
  }

  /** A run of the deployer. */
  function Run(s: State, inputs: seq<Input>): Trace {
    Fold(Step, s, inputs)
  }

  /** Feeding two input sequences one after the other is feeding their concatenation. */
  lemma {:induction false} FoldAppend(step: (State, Input) -> Transition, s: State, a: seq<Input>, b: seq<Input>)
    ensures Fold(step, s, a + b).final == Fold(step, Fold(step, s, a).final, b).final
    ensures Fold(step, s, a + b).log == Fold(step, s, a).log + Fold(step, Fold(step, s, a).final, b).log
    decreases |a|
  {
    if |a| == 0 {
      assert a + b == b;
    } else {
      var ab := a + b;
      assert ab[0] == a[0];
      assert ab[1..] == a[1..] + b;
      FoldAppend(step, step(s, a[0]).next, a[1..], b);
    }
  }

  /** Three inputs in a row. */
  lemma FoldThree(step: (State, Input) -> Transition, s: State, a: Input, b: Input, c: Input)
    ensures var t1 := step(s, a);
            var t2 := step(t1.next, b);
            var t3 := step(t2.next, c);
            && Fold(step, s, [a, b, c]).final == t3.next
            && Fold(step, s, [a, b, c]).log == t1.events + t2.events + t3.events
  {
    var t1 := step(s, a);
    var t2 := step(t1.next, b);
    var t3 := step(t2.next, c);
    assert [c][1..] == [];
    assert Fold(step, t2.next, [c]) == Trace(t3.next, t3.events + []);
    assert [b, c][1..] == [c];
    assert Fold(step, t1.next, [b, c]) == Trace(t3.next, t2.events + (t3.events + []));
    assert [a, b, c][1..] == [b, c];
    assert Fold(step, s, [a, b, c]) == Trace(t3.next, t1.events + (t2.events + (t3.events + [])));
    assert t1.events + (t2.events + (t3.events + [])) == t1.events + t2.events + t3.events;
  }

  // ---------------------------------------------------------------------------
  // Replaying the log

  /** Replays the `deployment_begins`, `deployment_complete` and `error`
      events of a log, starting with `p` as the deployment in progress; the
      result is the deployment in progress at the end, or None when the log
      is out of order: a begins while a deployment is in progress, or a
      complete for anything but the deployment in progress. */
  function Replay(p: Option<string>, es: seq<Event>): Option<Option<string>>
    decreases |es|
  {
    if |es| == 0 then
      Some(p)
    else
      match es[0]
      case DeploymentBegins(sha) => if p.None? then Replay(Some(sha), es[1..]) else None
      case DeploymentComplete(sha) => if p == Some(sha) then Replay(None, es[1..]) else None
      case Error(_) => Replay(None, es[1..])
      case _ => Replay(p, es[1..])
  }

  lemma {:induction false} ReplayAppend(p: Option<string>, a: seq<Event>, b: seq<Event>)
    ensures Replay(p, a + b) == match Replay(p, a)
                                case None => None
                                case Some(q) => Replay(q, b)
    decreases |a|
  {
    if |a| == 0 {
      assert a + b == b;
    } else {
      assert (a + b)[0] == a[0];
      assert (a + b)[1..] == a[1..] + b;
      match a[0]
      case DeploymentBegins(sha) =>
        if p.None? { ReplayAppend(Some(sha), a[1..], b); }
      case DeploymentComplete(sha) =>
        if p == Some(sha) { ReplayAppend(None, a[1..], b); }
      case Error(_) => ReplayAppend(None, a[1..], b);
      case Info(_) => ReplayAppend(p, a[1..], b);
      case Warn(_) => ReplayAppend(p, a[1..], b);
      case Progress(_) => ReplayAppend(p, a[1..], b);
    }
  }

  /** Events other than the three markers. */
  predicate Unmarked(e: Event) {
    e.Info? || e.Warn? || e.Progress?
  }

  /** The listeners keep `deployingSHA` exactly as the replay of the events
      `emit` records does, for every event that is in order. */
  lemma EmitFollowsReplay(s: State, e: Event)
    ensures Replay(s.deployingSha, [e]).Some? ==>
              Replay(s.deployingSha, Emit(s, e).events) == Some(Emit(s, e).next.deployingSha)
  {
    var t := Emit(s, e);
    assert [e][1..] == [];
    if Replay(s.deployingSha, [e]).Some? {
      if |t.events| == 2 {
        var after := [Info(CheckingMessage)];
        assert t.events == [e] + after;
        ReplayAppend(s.deployingSha, [e], after);
        assert after[1..] == [];
        assert Replay(None, after) == Some(None);
      }
    }
  }

  /** A log with no begins, complete or error replays to where it started. */
  lemma {:induction false} ReplayUnmarked(p: Option<string>, es: seq<Event>)
    requires forall i :: 0 <= i < |es| ==> Unmarked(es[i])
    ensures Replay(p, es) == Some(p)
    decreases |es|
  {
    if |es| > 0 {
      ReplayUnmarked(p, es[1..]);
    }
  }

  /** The events `latestSha`'s callback emits before `deployment_begins`. */
  lemma DriftPrefix(s: State, latest: string, running: Result<string, string>)
    requires running != Success(latest)
    ensures var before := [RunningReport(running)]
                          + (if running.Failure? then [Warn("latest available sha is " + latest)] else []);
            && OnRunningSha(s, latest, running).events == before + [DeploymentBegins(latest)]
            && forall i :: 0 <= i < |before| ==> Unmarked(before[i])
  {
  }

  /** No DNS request for the deploy host times out. */
  predicate NoTimeout(inputs: seq<Input>) {
    forall k :: 0 <= k < |inputs| ==> !inputs[k].RunningShaTimedOut?
  }

  /** The cleanup's events are all `info`. */
  lemma CleanupUnmarked(s: State, input: Input)
    requires input.CleanupShaDone? || input.VmListDone? || input.DestroyDone?
    ensures forall i :: 0 <= i < |Step(s, input).events| ==> Unmarked(Step(s, input).events[i])
  {
  }

  /** Without a resolver timeout, one step replays from `deployingSHA` before
      it to `deployingSHA` after it. */
  lemma StepReplays(s: State, input: Input)
    requires Valid(s) && !input.RunningShaTimedOut?
    ensures Replay(s.deployingSha, Step(s, input).events) == Some(Step(s, input).next.deployingSha)
  {
    var t := Step(s, input);
    match input
    case Check =>
      UnmarkedReplays(s.deployingSha, t.events);
    case RetryTimer =>
      UnmarkedReplays(s.deployingSha, t.events);
    case PullProgress(_) =>
      UnmarkedReplays(s.deployingSha, t.events);
    case ChildOutput(chunk) =>
      ReplayUnmarked(s.deployingSha, SplitAndEmit(chunk));
    case PullDone(i, err) => PullReplays(s, i, err);
    case LocalShaDone(i, local) => LocalShaReplays(s, i, local);
    case RunningShaDone(i, running) => RunningShaReplays(s, i, running);
    case RequestEnded(i) => FiredOnlyIsNot(s, i);
    case InstallExit(i, code) => InstallReplays(s, i, code);
    case DeployExit(i, code) => DeployReplays(s, i, code);
    case CleanupShaDone(_, _) =>
      CleanupUnmarked(s, input);
      ReplayUnmarked(s.deployingSha, t.events);
    case VmListDone(_, _) =>
      CleanupUnmarked(s, input);
      ReplayUnmarked(s.deployingSha, t.events);
    case DestroyDone(_, _) =>
      CleanupUnmarked(s, input);
      ReplayUnmarked(s.deployingSha, t.events);
  }

  /** At most one unmarked event replays to where it started. */
  lemma UnmarkedReplays(p: Option<string>, es: seq<Event>)
    requires |es| <= 1 && (|es| == 1 ==> Unmarked(es[0]))
    ensures Replay(p, es) == Some(p)
  {
    ReplayUnmarked(p, es);
  }

  /** One `error` replays to no deployment open. */
  lemma ErrorReplays(p: Option<string>, e: ErrorValue)
    ensures Replay(p, [Error(e)]) == Some(None)
  {
    assert [Error(e)][1..] == [];
  }

  /** Under the invariant, no second resolver call is due. */
  lemma FiredOnlyIsNot(s: State, i: nat)
    requires Valid(s)
    ensures FireRequestEnd(s, i) == Quiet(s)
  {
  }

  lemma PullReplays(s: State, i: nat, err: Option<string>)
    requires Valid(s)
    ensures Replay(s.deployingSha, FirePull(s, i, err).events) == Some(FirePull(s, i, err).next.deployingSha)
  {
    if i < |s.pending| && s.pending[i] == Pull {
      FiredOnly(s, i);
      if err.Some? { ErrorReplays(s.deployingSha, Message(err.value)); }
    }
  }

  lemma LocalShaReplays(s: State, i: nat, local: Result<string, string>)
    requires Valid(s)
    ensures Replay(s.deployingSha, FireLocalSha(s, i, local).events) == Some(FireLocalSha(s, i, local).next.deployingSha)
  {
    if i < |s.pending| && s.pending[i] == LocalSha {
      FiredOnly(s, i);
      if local.Failure? {
        ErrorReplays(s.deployingSha, Message(local.error));
      } else {
        UnmarkedReplays(s.deployingSha, FireLocalSha(s, i, local).events);
      }
    }
  }

  lemma RunningShaReplays(s: State, i: nat, running: Result<string, string>)
    requires Valid(s)
    ensures Replay(s.deployingSha, FireRunningSha(s, i, running).events)
            == Some(FireRunningSha(s, i, running).next.deployingSha)
  {
    if i < |s.pending| && s.pending[i].RunningSha? {
      FiredOnly(s, i);
      var latest := s.pending[i].latest;
      var t := FireRunningSha(s, i, running);
      assert s.deployingSha == None;
      if running != Success(latest) {
        DriftPrefix(Fired(s, i), latest, running);
        var before := [RunningReport(running)]
                      + (if running.Failure? then [Warn("latest available sha is " + latest)] else []);
        ReplayUnmarked(None, before);
        ReplayAppend(None, before, [DeploymentBegins(latest)]);
        assert [DeploymentBegins(latest)][1..] == [];
        assert Replay(None, [DeploymentBegins(latest)]) == Some(Some(latest));
      } else {
        ReplayUnmarked(None, t.events);
      }
    }
  }

  lemma InstallReplays(s: State, i: nat, code: ExitCode)
    requires Valid(s)
    ensures Replay(s.deployingSha, FireInstall(s, i, code).events) == Some(FireInstall(s, i, code).next.deployingSha)
  {
    if i < |s.pending| && s.pending[i].Install? {
      FiredOnly(s, i);
      if !ExitOk(code) { ErrorReplays(s.deployingSha, Message(NpmFailedMessage)); }
    }
  }

  lemma DeployReplays(s: State, i: nat, code: ExitCode)
    requires Valid(s)
    ensures Replay(s.deployingSha, FireDeploy(s, i, code).events) == Some(FireDeploy(s, i, code).next.deployingSha)
  {
    if i < |s.pending| && s.pending[i].Deploy? {
      FiredOnly(s, i);
      if !ExitOk(code) {
        ErrorReplays(s.deployingSha, ExitFailure);
      } else {
        var latest := s.pending[i].latest;
        assert s.deployingSha == Some(latest);
        assert [DeploymentComplete(latest)][1..] == [];
      }
    }
  }

  /** Without a resolver timeout, a run keeps the invariant and replays from
      `deployingSHA` at its start to `deployingSHA` at its end. */
  lemma {:induction false} RunReplays(s: State, inputs: seq<Input>)
    requires Valid(s) && NoTimeout(inputs)
    ensures Valid(Run(s, inputs).final)
    ensures Replay(s.deployingSha, Run(s, inputs).log) == Some(Run(s, inputs).final.deployingSha)
    decreases |inputs|
  {
    if |inputs| > 0 {
      var t := Step(s, inputs[0]);
      assert !inputs[0].RunningShaTimedOut?;
      StepPreservesValid(s, inputs[0]);
      StepReplays(s, inputs[0]);
      assert NoTimeout(inputs[1..]) by {
        forall k | 0 <= k < |inputs[1..]| ensures !inputs[1..][k].RunningShaTimedOut? {
          assert inputs[1..][k] == inputs[k + 1];
        }
      }
      RunReplays(t.next, inputs[1..]);
      ReplayAppend(s.deployingSha, t.events, Run(t.next, inputs[1..]).log);
    }
  }

  /** From start-up and without a resolver timeout, the event log is in order
      and the status page reports exactly the deployment the log leaves open. */
  lemma StatusMatchesLog(inputs: seq<Input>)
    requires NoTimeout(inputs)
    ensures var s, es := Run(Init, inputs).final, Run(Init, inputs).log;
            && Valid(s)
            && Replay(None, es) == Some(s.deployingSha)
            && (Status(s.deployingSha) == "idle" <==> !Truthy(Replay(None, es).value))
  {
    RunReplays(Init, inputs);
  }

  /** Deployments never overlap as long as no DNS request for the deploy host
      times out: in the log of such a run from start-up, a
      `deployment_begins` comes only when no deployment is open, and a
      `deployment_complete` only for the deployment that is open. */
  lemma SingleFlight(inputs: seq<Input>)
    requires NoTimeout(inputs)
    ensures var es := Run(Init, inputs).log;
            forall j :: 0 <= j < |es| ==>
              && (es[j].DeploymentBegins? ==> Replay(None, es[..j]) == Some(None))
              && (es[j].DeploymentComplete? ==> Replay(None, es[..j]) == Some(Some(es[j].sha)))
  {
    var es := Run(Init, inputs).log;
    RunReplays(Init, inputs);
    forall j | 0 <= j < |es|
      ensures es[j].DeploymentBegins? ==> Replay(None, es[..j]) == Some(None)
      ensures es[j].DeploymentComplete? ==> Replay(None, es[..j]) == Some(Some(es[j].sha))
    {
      assert es == es[..j] + es[j..];
      ReplayAppend(None, es[..j], es[j..]);
      assert es[j..][0] == es[j];
    }
  }

  // ---------------------------------------------------------------------------
  // A resolver timeout

  /** Two steps in a row. */
  lemma FoldTwo(step: (State, Input) -> Transition, s: State, a: Input, b: Input)
    ensures var t1 := step(s, a);
            var t2 := step(t1.next, b);
            && Fold(step, s, [a, b]).final == t2.next
            && Fold(step, s, [a, b]).log == t1.events + t2.events
  {
    var t1 := step(s, a);
    var t2 := step(t1.next, b);
    assert [b][1..] == [];
    assert Fold(step, t1.next, [b]) == Trace(t2.next, t2.events + []);
    assert [a, b][1..] == [b];
    assert t2.events + [] == t2.events;
  }

  lemma TimedOutStep(s: State)
    requires |s.pending| == 1 && s.pending[0].RunningSha?
    ensures Step(s, RunningShaTimedOut(0)) == OnRunningShaTimedOut(s.(pending := []), s.pending[0].latest)
  {
    assert Fired(s, 0) == s.(pending := []);
  }

  lemma RequestEndedStep(s: State)
    requires |s.pending| >= 1 && s.pending[0].RequestEnd?
    ensures Step(s, RequestEnded(0)) == OnRequestEnded(s.(pending := s.pending[1..]), s.pending[0].latest)
  {
    assert Step(s, RequestEnded(0)) == FireRequestEnd(s, 0);
    assert Fired(s, 0) == s.(pending := s.pending[1..]);
  }

  /** The two calls of `latestSha`'s callback after a timeout, from a check
      waiting for the live sha. */
  lemma TimeoutSteps(s: State, latest: string)
    requires s.pending == [RunningSha(latest)]
    ensures var r := Run(s, [RunningShaTimedOut(0), RequestEnded(0)]);
            var warn := Warn("latest available sha is " + latest);
            && r.log == [Info("can't get current running code: " + TimeoutError(DeployHostname)), warn,
                         DeploymentBegins(latest),
                         Info("can't get current running code: " + NoAddressError(DeployHostname)), warn,
                         DeploymentBegins(latest)]
            && r.final.pending == [Install(latest), Install(latest)]
            && r.final.deployingSha == Some(latest)
  {
    var timeout := Failure(TimeoutError(DeployHostname));
    var noAddress := Failure(NoAddressError(DeployHostname));
    TimedOutStep(s);
    var s0 := s.(pending := []);
    DriftPrefix(s0.(pending := [RequestEnd(latest)]), latest, timeout);
    var t4 := Step(s, RunningShaTimedOut(0));
    assert t4.next.pending == [RequestEnd(latest), Install(latest)];
    RequestEndedStep(t4.next);
    assert t4.next.pending[1..] == [Install(latest)];
    DriftPrefix(t4.next.(pending := [Install(latest)]), latest, noAddress);
    FoldTwo(Step, s, RunningShaTimedOut(0), RequestEnded(0));
  }

  /** A log that begins the same deployment twice, with only unmarked events
      in between, does not replay. */
  lemma BeginsTwiceDoesNotReplay(a: seq<Event>, b: seq<Event>, sha: string)
    requires forall i :: 0 <= i < |a| ==> Unmarked(a[i])
    requires forall i :: 0 <= i < |b| ==> Unmarked(b[i])
    ensures Replay(None, a + [DeploymentBegins(sha)] + b + [DeploymentBegins(sha)]) == None
  {
    var begins := [DeploymentBegins(sha)];
    ReplayUnmarked(None, a);
    ReplayUnmarked(Some(sha), b);
    assert begins[1..] == [];
    ReplayAppend(None, a, begins);
    ReplayAppend(None, a + begins, b);
    ReplayAppend(None, a + begins + b, begins);
  }

  /** When the DNS request for the deploy host times out, `latestSha` calls
      back twice and the deployment begins twice: the log holds a second
      `deployment_begins` while the first deployment is open, two `npm
      install` runs are in flight, and the log no longer replays. */
  lemma TimeoutBeginsTwice(latest: string)
    ensures var r := Run(Init, [Check, PullDone(0, None), LocalShaDone(0, Success(latest)),
                                RunningShaTimedOut(0), RequestEnded(0)]);
            var warn := Warn("latest available sha is " + latest);
            && r.log == [Info(CheckingMessage), Info("latest available sha is " + latest),
                         Info("can't get current running code: " + TimeoutError(DeployHostname)), warn,
                         DeploymentBegins(latest),
                         Info("can't get current running code: " + NoAddressError(DeployHostname)), warn,
                         DeploymentBegins(latest)]
            && r.final.pending == [Install(latest), Install(latest)]
            && r.final.deployingSha == Some(latest)
            && !Valid(r.final)
            && Replay(None, r.log) == None
  {
    var head := [Check, PullDone(0, None), LocalShaDone(0, Success(latest))];
    var tail := [RunningShaTimedOut(0), RequestEnded(0)];
    CheckStart(Init, latest);
    TimeoutSteps(Init.(busy := true, pending := [RunningSha(latest)]), latest);
    RunAppend(Init, head, tail);
    assert head + tail == [Check, PullDone(0, None), LocalShaDone(0, Success(latest)),
                           RunningShaTimedOut(0), RequestEnded(0)];
    var warn := Warn("latest available sha is " + latest);
    var a := [Info(CheckingMessage), Info("latest available sha is " + latest),
              Info("can't get current running code: " + TimeoutError(DeployHostname)), warn];
    var b := [Info("can't get current running code: " + NoAddressError(DeployHostname)), warn];
    BeginsTwiceDoesNotReplay(a, b, latest);
    assert a + [DeploymentBegins(latest)] + b + [DeploymentBegins(latest)] == Run(Init, head + tail).log;
  }

  // ---------------------------------------------------------------------------
  // Every complete has its begins, in every run

  /** Every deployment in flight has its `deployment_begins` in the log. */
  predicate Begun(s: State, log: seq<Event>) {
    forall a :: a in s.pending && (a.Install? || a.Deploy?) ==> DeploymentBegins(a.latest) in log
  }

  lemma StepKeepsBegun(s: State, input: Input, log: seq<Event>)
    requires Begun(s, log)
    ensures Begun(Step(s, input).next, log + Step(s, input).events)
    ensures forall j :: 0 <= j < |Step(s, input).events| && Step(s, input).events[j].DeploymentComplete? ==>
                          DeploymentBegins(Step(s, input).events[j].sha) in log
  {
    var t := Step(s, input);
    forall a | a in t.next.pending && (a.Install? || a.Deploy?)
      ensures DeploymentBegins(a.latest) in log + t.events
    {
      StepPending(s, input, a);
    }
    forall j | 0 <= j < |t.events| && t.events[j].DeploymentComplete?
      ensures DeploymentBegins(t.events[j].sha) in log
    {
      assert DeploymentComplete(t.events[j].sha) in t.events;
      CompleteOnlyOnCleanExit(s, input, t.events[j].sha);
      assert s.pending[input.slot] in s.pending;
    }
  }

  /** A deployment in flight after a step was in flight before it, or began in it. */
  lemma StepPending(s: State, input: Input, a: Awaiting)
    requires a in Step(s, input).next.pending && (a.Install? || a.Deploy?)
    ensures (a in s.pending && (a.Install? || a.Deploy?)) || Install(a.latest) in s.pending
            || DeploymentBegins(a.latest) in Step(s, input).events
  {
    match input
    case RunningShaDone(i, running) =>
    case RunningShaTimedOut(i) =>
    case RequestEnded(i) =>
    case InstallExit(i, code) =>
    case PullDone(i, err) => CallbackPending(s, input, a);
    case LocalShaDone(i, local) => CallbackPending(s, input, a);
    case DeployExit(i, code) => CallbackPending(s, input, a);
    case _ => ScheduledPending(s, input, a);
  }

  /** git's callbacks and the deploy process's exit add no deployment in flight. */
  lemma CallbackPending(s: State, input: Input, a: Awaiting)
    requires input.PullDone? || input.LocalShaDone? || input.DeployExit?
    requires a in Step(s, input).next.pending && (a.Install? || a.Deploy?)
    ensures a in s.pending
  {
  }

  /** Checks, timers, output and the cleanup's callbacks add no deployment in flight. */
  lemma ScheduledPending(s: State, input: Input, a: Awaiting)
    requires !input.PullDone? && !input.LocalShaDone? && !input.DeployExit? && !input.InstallExit?
    requires !input.RunningShaDone? && !input.RunningShaTimedOut? && !input.RequestEnded?
    requires a in Step(s, input).next.pending && (a.Install? || a.Deploy?)
    ensures a in s.pending
  {
  }

  /** Every `deployment_complete` of a run from a state whose deployments in
      flight have all begun is preceded by its `deployment_begins`, counting
      the log before the run. */
  lemma {:induction false} RunKeepsBegun(s: State, inputs: seq<Input>, log: seq<Event>)
    requires Begun(s, log)
    ensures var es := Run(s, inputs).log;
            forall j :: 0 <= j < |es| && es[j].DeploymentComplete? ==> DeploymentBegins(es[j].sha) in log + es[..j]
    decreases |inputs|
  {
    if |inputs| > 0 {
      var t := Step(s, inputs[0]);
      var rest := Run(t.next, inputs[1..]).log;
      RunCons(s, inputs[0], inputs[1..]);
      assert [inputs[0]] + inputs[1..] == inputs;
      StepKeepsBegun(s, inputs[0], log);
      RunKeepsBegun(t.next, inputs[1..], log + t.events);
      CompletesBegun(log, t.events, rest);
    }
  }

  /** The log of a step followed by the log of the rest of a run, when each
      part's completes have their begins. */
  lemma CompletesBegun(log: seq<Event>, a: seq<Event>, b: seq<Event>)
    requires forall j :: 0 <= j < |a| && a[j].DeploymentComplete? ==> DeploymentBegins(a[j].sha) in log
    requires forall j :: 0 <= j < |b| && b[j].DeploymentComplete? ==> DeploymentBegins(b[j].sha) in (log + a) + b[..j]
    ensures forall j :: 0 <= j < |a + b| && (a + b)[j].DeploymentComplete? ==>
                          DeploymentBegins((a + b)[j].sha) in log + (a + b)[..j]
  {
    forall j | 0 <= j < |a + b| && (a + b)[j].DeploymentComplete?
      ensures DeploymentBegins((a + b)[j].sha) in log + (a + b)[..j]
    {
      if j < |a| {
        assert (a + b)[j] == a[j];
        assert DeploymentBegins(a[j].sha) in log;
      } else {
        var k := j - |a|;
        assert (a + b)[j] == b[k];
        assert (a + b)[..j] == a + b[..k];
        assert log + (a + b)[..j] == (log + a) + b[..k];
      }
    }
  }

  /** Every `deployment_complete{sha}` is preceded by `deployment_begins{sha}`,
      in every run from start-up, resolver timeouts included. */
  lemma BeginsPrecedesComplete(inputs: seq<Input>)
    ensures var es := Run(Init, inputs).log;
            forall j :: 0 <= j < |es| && es[j].DeploymentComplete? ==>
              exists i :: 0 <= i < j && es[i] == DeploymentBegins(es[j].sha)
  {
    var es := Run(Init, inputs).log;
    RunKeepsBegun(Init, inputs, []);
    forall j | 0 <= j < |es| && es[j].DeploymentComplete?
      ensures exists i :: 0 <= i < j && es[i] == DeploymentBegins(es[j].sha)
    {
      assert [] + es[..j] == es[..j];
      var i :| 0 <= i < |es[..j]| && es[..j][i] == DeploymentBegins(es[j].sha);
      assert es[i] == es[..j][i];
    }
  }

  // ---------------------------------------------------------------------------
  // Retries

  function CountErrors(es: seq<Event>): nat
    decreases |es|
  {
    if |es| == 0 then 0 else (if es[0].Error? then 1 else 0) + CountErrors(es[1..])
  }

  lemma {:induction false} NoErrorsCounted(es: seq<Event>)
    requires forall i :: 0 <= i < |es| ==> !es[i].Error?
    ensures CountErrors(es) == 0
    decreases |es|
  {
    if |es| > 0 {
      NoErrorsCounted(es[1..]);
    }
  }

  lemma {:induction false} CountErrorsAppend(a: seq<Event>, b: seq<Event>)
    ensures CountErrors(a + b) == CountErrors(a) + CountErrors(b)
    decreases |a|
  {
    if |a| == 0 {
      assert a + b == b;
    } else {
      assert (a + b)[1..] == a[1..] + b;
      CountErrorsAppend(a[1..], b);
    }
  }

  lemma CountErrorsOne(e: Event)
    ensures CountErrors([e]) == if e.Error? then 1 else 0
  {
    assert [e][1..] == [];
  }

  /** Each `error` event arms exactly one retry timer, and a firing timer
      consumes one, in every state. */
  lemma EachErrorArmsOneRetry(s: State, input: Input)
    ensures var t := Step(s, input);
            t.next.retries + (if input == RetryTimer && s.retries > 0 then 1 else 0)
            == s.retries + CountErrors(t.events)
  {
    var t := Step(s, input);
    match input
    case ChildOutput(chunk) =>
      NoErrorsCounted(SplitAndEmit(chunk));
    case CleanupShaDone(_, _) =>
      CleanupUnmarked(s, input);
      NoErrorsCounted(t.events);
    case VmListDone(_, _) =>
      CleanupUnmarked(s, input);
      NoErrorsCounted(t.events);
    case DestroyDone(_, _) =>
      CleanupUnmarked(s, input);
      NoErrorsCounted(t.events);
    case RunningShaDone(i, running) =>
      if i < |s.pending| && s.pending[i].RunningSha? {
        ResolverCallbackErrors(Fired(s, i), s.pending[i].latest, running);
      }
    case RunningShaTimedOut(i) =>
      if i < |s.pending| && s.pending[i].RunningSha? {
        var latest := s.pending[i].latest;
        ResolverCallbackErrors(Fired(s, i).(pending := Fired(s, i).pending + [RequestEnd(latest)]),
                               latest, Failure(TimeoutError(DeployHostname)));
      }
    case RequestEnded(i) =>
      if i < |s.pending| && s.pending[i].RequestEnd? {
        ResolverCallbackErrors(Fired(s, i), s.pending[i].latest, Failure(NoAddressError(DeployHostname)));
      }
    case DeployExit(i, code) =>
      DeployExitErrors(s, i, code);
    case _ =>
      SingleEventErrors(s, input);
  }

  /** Checks, timers, git's callbacks and npm's exit emit at most one event,
      and arm a retry exactly when it is an `error`. */
  lemma SingleEventErrors(s: State, input: Input)
    requires input.Check? || input.RetryTimer? || input.PullProgress? || input.PullDone?
             || input.LocalShaDone? || input.InstallExit?
    ensures var t := Step(s, input);
            t.next.retries + (if input == RetryTimer && s.retries > 0 then 1 else 0)
            == s.retries + CountErrors(t.events)
  {
    var t := Step(s, input);
    assert |t.events| <= 1;
    if |t.events| == 1 {
      CountErrorsOne(t.events[0]);
      assert t.events == [t.events[0]];
    }
  }

  /** The deploy process's exit arms a retry exactly when it emits `error`. */
  lemma DeployExitErrors(s: State, i: nat, code: ExitCode)
    ensures FireDeploy(s, i, code).next.retries == s.retries + CountErrors(FireDeploy(s, i, code).events)
  {
    var t := FireDeploy(s, i, code);
    if i < |s.pending| && s.pending[i].Deploy? && ExitOk(code) && !Fired(s, i).busy {
      var c := DeploymentComplete(s.pending[i].latest);
      CountErrorsAppend([c], [Info(CheckingMessage)]);
      CountErrorsOne(c);
      CountErrorsOne(Info(CheckingMessage));
      assert t.events == [c] + [Info(CheckingMessage)];
    } else if |t.events| == 1 {
      CountErrorsOne(t.events[0]);
      assert t.events == [t.events[0]];
    }
  }

  /** A callback of `latestSha` emits no error and arms no retry. */
  lemma ResolverCallbackErrors(s: State, latest: string, running: Result<string, string>)
    ensures CountErrors(OnRunningSha(s, latest, running).events) == 0
    ensures OnRunningSha(s, latest, running).next.retries == s.retries
  {
    NoErrorsCounted(OnRunningSha(s, latest, running).events);
  }

  // ---------------------------------------------------------------------------
  // A failed npm install

  /** A failed `npm install` leaves the deployer busy with nothing pending. */
  lemma InstallFailureWedges(s: State, code: ExitCode)
    requires Valid(s) && |s.pending| == 1 && s.pending[0].Install? && !ExitOk(code)
    ensures var t := Step(s, InstallExit(0, code));
            && Wedged(t.next)
            && t.events == [Error(Message(NpmFailedMessage))]
            && t.next.retries == s.retries + 1
  {
    FiredOnly(s, 0);
  }

  /** Events that arrive from outside a check: child-process progress and
      the cleanup's `info` reports. */
  predicate Background(es: seq<Event>) {
    forall i :: 0 <= i < |es| ==> es[i].Progress? || es[i].Info?
  }

  lemma WedgedStep(s: State, input: Input)
    requires Wedged(s)
    ensures Wedged(Step(s, input).next)
    ensures Background(Step(s, input).events)
  {
    if input.CleanupShaDone? || input.VmListDone? || input.DestroyDone? {
      CleanupUnmarked(s, input);
    }
  }

  lemma BackgroundAppend(a: seq<Event>, b: seq<Event>)
    requires Background(a) && Background(b)
    ensures Background(a + b)
  {
    forall i | 0 <= i < |a + b| ensures (a + b)[i].Progress? || (a + b)[i].Info? {
      if i >= |a| { assert (a + b)[i] == b[i - |a|]; }
    }
  }

  /** Once wedged, the deployer stays wedged whatever happens: checks, retry
      timers and every other input change nothing, and only child-process
      output and the reports of cleanups already under way still produce
      events (`progress` and `info`). */
  lemma {:induction false} WedgedForever(s: State, inputs: seq<Input>)
    requires Wedged(s)
    ensures Wedged(Run(s, inputs).final)
    ensures Background(Run(s, inputs).log)
    decreases |inputs|
  {
    if |inputs| > 0 {
      var t := Step(s, inputs[0]);
      WedgedStep(s, inputs[0]);
      WedgedForever(t.next, inputs[1..]);
      BackgroundAppend(t.events, Run(t.next, inputs[1..]).log);
    }
  }

  // ---------------------------------------------------------------------------
  // Whole check cycles

  lemma RunCons(s: State, input: Input, rest: seq<Input>)
    ensures Run(s, [input] + rest).final == Run(Step(s, input).next, rest).final
    ensures Run(s, [input] + rest).log == Step(s, input).events + Run(Step(s, input).next, rest).log
  {
    assert ([input] + rest)[1..] == rest;
  }

  lemma RunOne(s: State, input: Input)
    ensures Run(s, [input]).final == Step(s, input).next
    ensures Run(s, [input]).log == Step(s, input).events
  {
    RunCons(s, input, []);
    assert [input] + [] == [input];
    assert Run(Step(s, input).next, []).log == [];
    assert Step(s, input).events + [] == Step(s, input).events;
  }

  lemma RunAppend(s: State, a: seq<Input>, b: seq<Input>)
    ensures Run(s, a + b).final == Run(Run(s, a).final, b).final
    ensures Run(s, a + b).log == Run(s, a).log + Run(Run(s, a).final, b).log
  {
    FoldAppend(Step, s, a, b);
  }

  /** The start of every check from an idle state: `checkForUpdates`, a
      clean pull and the local sha. */
  lemma CheckStart(s: State, latest: string)
    requires Valid(s) && !s.busy
    ensures var r := Run(s, [Check, PullDone(0, None), LocalShaDone(0, Success(latest))]);
            && r.final == s.(busy := true, pending := [RunningSha(latest)])
            && r.log == [Info(CheckingMessage), Info("latest available sha is " + latest)]
  {
    var i0, i1, i2 := Check, PullDone(0, None), LocalShaDone(0, Success(latest));
    var s1 := s.(busy := true, pending := [Pull]);
    var s2 := s1.(pending := [LocalSha]);
    var e0, e2 := Info(CheckingMessage), Info("latest available sha is " + latest);
    assert s.pending == [];
    assert Fired(s1, 0).pending == [];
    assert Fired(s2, 0).pending == [];
    RunOne(s2, i2);
    RunCons(s1, i1, [i2]);
    assert [i1] + [i2] == [i1, i2];
    RunCons(s, i0, [i1, i2]);
    assert [i0] + [i1, i2] == [i0, i1, i2];
    assert Run(s, [i0, i1, i2]).log == [e0] + ([] + [e2]);
  }

  /** The end of a check that finds drift: the running sha differs, `npm
      install` succeeds, and the deploy exits with `code`. */
  lemma DeployFinish(s3: State, running: Result<string, string>, code: ExitCode)
    requires |s3.pending| == 1 && s3.pending[0].RunningSha? && running != Success(s3.pending[0].latest)
    ensures var latest := s3.pending[0].latest;
            var warning := if running.Failure? then [Warn("latest available sha is " + latest)] else [];
            var s5 := s3.(pending := [Deploy(latest)], deployingSha := Some(latest));
            var last := DeployExit(0, code);
            var r := Run(s3, [RunningShaDone(0, running), InstallExit(0, Some(0)), last]);
            && r.final == Step(s5, last).next
            && r.log == [RunningReport(running)] + warning + [DeploymentBegins(latest)] + Step(s5, last).events
  {
    var latest := s3.pending[0].latest;
    var i3, i4, last := RunningShaDone(0, running), InstallExit(0, Some(0)), DeployExit(0, code);
    var s4 := s3.(pending := [Install(latest)], deployingSha := Some(latest));
    DriftStep(s3, running);
    InstallOkStep(s4);
    FoldThree(Step, s3, i3, i4, last);
    assert Step(s3, i3).events + [] == Step(s3, i3).events;
  }

  /** The running sha differs from the latest one: the deployment begins. */
  lemma DriftStep(s: State, running: Result<string, string>)
    requires |s.pending| == 1 && s.pending[0].RunningSha? && running != Success(s.pending[0].latest)
    ensures var latest := s.pending[0].latest;
            var t := Step(s, RunningShaDone(0, running));
            && t.next == s.(pending := [Install(latest)], deployingSha := Some(latest))
            && t.events == [RunningReport(running)]
                           + (if running.Failure? then [Warn("latest available sha is " + latest)] else [])
                           + [DeploymentBegins(latest)]
  {
    assert Fired(s, 0).pending == [];
    DriftPrefix(Fired(s, 0), s.pending[0].latest, running);
  }

  /** The deploy script's exit is handled by `OnDeployExit`. */
  lemma DeployExitStep(s: State, code: ExitCode)
    requires |s.pending| == 1 && s.pending[0].Deploy?
    ensures Step(s, DeployExit(0, code)) == OnDeployExit(s.(pending := []), s.pending[0].latest, code)
  {
    assert Fired(s, 0) == s.(pending := []);
  }

  /** `npm install` exits cleanly: the deploy script is started, silently. */
  lemma InstallOkStep(s: State)
    requires |s.pending| == 1 && s.pending[0].Install?
    ensures Step(s, InstallExit(0, Some(0))) == Transition(s.(pending := [Deploy(s.pending[0].latest)]), [], false)
  {
    assert Fired(s, 0).pending == [];
  }

  /** The common check: the live sha equals the latest one. Exactly the four
      `info` events are emitted, no deployment begins, and the state ends as
      it started. */
  lemma UpToDateCycle(s: State, sha: string)
    requires Valid(s) && !s.busy
    ensures var r := Run(s, [Check, PullDone(0, None), LocalShaDone(0, Success(sha)), RunningShaDone(0, Success(sha))]);
            && r.final == s
            && r.log == [Info(CheckingMessage), Info("latest available sha is " + sha),
                         Info("current running sha is: " + sha), Info(UpToDateMessage)]
  {
    var head := [Check, PullDone(0, None), LocalShaDone(0, Success(sha))];
    var i3 := RunningShaDone(0, Success(sha));
    var s3 := s.(busy := true, pending := [RunningSha(sha)]);
    CheckStart(s, sha);
    assert Fired(s3, 0).pending == [];
    RunOne(s3, i3);
    RunAppend(s, head, [i3]);
    assert head + [i3] == [Check, PullDone(0, None), LocalShaDone(0, Success(sha)), i3];
    assert s == State(false, [], None, s.retries, s.cleanups);
  }

  /** A check that finds drift and deploys successfully: the deployment
      begins and completes for the latest sha, the re-check requested by the
      `deployment_complete` listener finds the deployer still busy and does
      nothing (there is no second "checking for updates"), a cleanup is
      started, and otherwise the state ends as it started. */
  lemma DeployCycle(s: State, latest: string, running: Result<string, string>)
    requires Valid(s) && !s.busy && running != Success(latest)
    ensures var warning := if running.Failure? then [Warn("latest available sha is " + latest)] else [];
            var r := Run(s, [Check, PullDone(0, None), LocalShaDone(0, Success(latest)), RunningShaDone(0, running),
                             InstallExit(0, Some(0)), DeployExit(0, Some(0))]);
            && r.final == s.(cleanups := s.cleanups + [CleanupSha])
            && r.log == [Info(CheckingMessage), Info("latest available sha is " + latest), RunningReport(running)]
                        + warning + [DeploymentBegins(latest), DeploymentComplete(latest)]
    ensures Step(s.(busy := true, pending := [Deploy(latest)], deployingSha := Some(latest)), DeployExit(0, Some(0))).cleanup
  {
    var head := [Check, PullDone(0, None), LocalShaDone(0, Success(latest))];
    var tail := [RunningShaDone(0, running), InstallExit(0, Some(0)), DeployExit(0, Some(0))];
    CheckStart(s, latest);
    DeployFinish(s.(busy := true, pending := [RunningSha(latest)]), running, Some(0));
    DeployExitStep(s.(busy := true, pending := [Deploy(latest)], deployingSha := Some(latest)), Some(0));
    RunAppend(s, head, tail);
    assert head + tail == [Check, PullDone(0, None), LocalShaDone(0, Success(latest)), RunningShaDone(0, running),
                           InstallExit(0, Some(0)), DeployExit(0, Some(0))];
    assert s == State(false, [], None, s.retries, s.cleanups);
  }

  /** A check whose deploy exits non-zero: the error ends the deployment,
      `busy` is cleared and one retry is armed. */
  lemma FailedDeployCycle(s: State, latest: string, running: Result<string, string>, code: ExitCode)
    requires Valid(s) && !s.busy && running != Success(latest) && !ExitOk(code)
    ensures var warning := if running.Failure? then [Warn("latest available sha is " + latest)] else [];
            var r := Run(s, [Check, PullDone(0, None), LocalShaDone(0, Success(latest)), RunningShaDone(0, running),
                             InstallExit(0, Some(0)), DeployExit(0, code)]);
            && r.final == s.(retries := s.retries + 1)
            && r.log == [Info(CheckingMessage), Info("latest available sha is " + latest), RunningReport(running)]
                        + warning + [DeploymentBegins(latest), Error(ExitFailure)]
  {
    var head := [Check, PullDone(0, None), LocalShaDone(0, Success(latest))];
    var tail := [RunningShaDone(0, running), InstallExit(0, Some(0)), DeployExit(0, code)];
    CheckStart(s, latest);
    DeployFinish(s.(busy := true, pending := [RunningSha(latest)]), running, code);
    DeployExitStep(s.(busy := true, pending := [Deploy(latest)], deployingSha := Some(latest)), code);
    RunAppend(s, head, tail);
    assert head + tail == [Check, PullDone(0, None), LocalShaDone(0, Success(latest)), RunningShaDone(0, running),
                           InstallExit(0, Some(0)), DeployExit(0, code)];
    assert s == State(false, [], None, s.retries, s.cleanups);
  }

  lemma CleanupShaStep(s: State, current: Result<string, string>)
    requires |s.cleanups| > 0 && s.cleanups[0] == CleanupSha
    ensures Step(s, CleanupShaDone(0, current)) == OnCleanupSha(FiredCleanup(s, 0), current)
  {
  }

  lemma VmListStep(s: State, listing: Result<seq<Vm>, string>)
    requires |s.cleanups| > 0 && s.cleanups[0].VmList?
    ensures Step(s, VmListDone(0, listing)) == OnVmList(FiredCleanup(s, 0), s.cleanups[0].latest, listing)
  {
  }

  /** A cleanup runs to the same `info` events and destroy requests as the
      whole of `_cleanUpOldVMs` computed at once: its two lookups' callbacks
      in turn leave one pending `vm.destroy` per stale VM, and nothing else
      of the state changes. */
  lemma CleanupChain(s: State, current: Result<string, string>, listing: Result<seq<Vm>, string>)
    requires s.cleanups == [CleanupSha]
    ensures var r := Run(s, [CleanupShaDone(0, current), VmListDone(0, listing)]);
            var c := CleanUp(current, listing);
            && r.log == c.events
            && r.final == s.(cleanups := Destroys(c.destroy))
  {
    var s1 := s.(cleanups := []);
    assert FiredCleanup(s, 0) == s1;
    CleanupShaStep(s, current);
    var t1 := OnCleanupSha(s1, current);
    FoldTwo(Step, s, CleanupShaDone(0, current), VmListDone(0, listing));
    if current.Success? {
      assert FiredCleanup(t1.next, 0) == s1;
      VmListStep(t1.next, listing);
      assert [] + Destroys(CleanUp(current, listing).destroy) == Destroys(CleanUp(current, listing).destroy);
    } else {
      assert Step(t1.next, VmListDone(0, listing)) == Quiet(s1);
      assert Destroys([]) == [];
      assert t1.events + [] == t1.events;
    }
  }
}

=== FILE: latest_sha.dfy ===
/** lib/latest_sha.js: which revision is live on a host. The address is
    looked up directly at the nameserver of the host's parent zone, then
    `/ver.txt` is fetched from that address and its first space-separated
    token must be a 7-character short sha. The zone lookup, the DNS request
    and the HTTP request are network I/O; only their outcomes are modelled. */
module LatestSha {
  import opened Wrappers
  import opened Strings

  /** Length of a short revision id in ver.txt. */
  const ShaLength := 7

  // ---------------------------------------------------------------------------
  // Phase 1: the address

  /** The zone whose nameserver is asked: `hostname.split('.').slice(1).join('.')`. */
  function ParentDomain(hostname: string): string {
    Join(Split(hostname, '.')[1..], '.')
  }

  /** The parent domain is the host name with its first label removed; a name
      without a dot has the empty parent domain. */
  lemma ParentDomainDropsFirstLabel(hostname: string)
    ensures '.' !in hostname ==> ParentDomain(hostname) == ""
    ensures forall k :: 0 <= k < |hostname| && hostname[k] == '.' && '.' !in hostname[..k]
                        ==> ParentDomain(hostname) == hostname[k + 1..]
  {
    if '.' !in hostname {
      SplitNoSeparator(hostname, '.');
    }
    forall k | 0 <= k < |hostname| && hostname[k] == '.' && '.' !in hostname[..k]
      ensures ParentDomain(hostname) == hostname[k + 1..]
    {
      SplitAtFirst(hostname, '.', k);
      assert Split(hostname, '.')[1..] == Split(hostname[k + 1..], '.');
      JoinSplit(hostname[k + 1..], '.');
    }
  }

  /** The parent domain of `host.zone` is `zone` when `host` has no dot. */
  lemma ParentDomainOfLabel(host: string, zone: string)
    requires '.' !in host
    ensures ParentDomain(host + "." + zone) == zone
  {
    SplitAround(host, zone, '.');
    SplitNoSeparator(host, '.');
    assert (Split(host, '.') + Split(zone, '.'))[1..] == Split(zone, '.');
    JoinSplit(zone, '.');
  }

  /** One record of a DNS answer section; records that are not A records
      carry no `address`. */
  datatype Answer = Answer(address: Option<string>)

  /** The `foundAddr` loop: each record's address is taken as long as nothing
      truthy has been found yet. */
  function FoldAddress(found: Option<string>, answers: seq<Answer>): Option<string>
    decreases |answers|
  {
    if |answers| == 0 then found
    else FoldAddress(if Truthy(found) then found else answers[0].address, answers[1..])
  }

  /** The address `resolve` reports once the request ends. */
  function FoundAddress(answers: seq<Answer>): Option<string> {
    FoldAddress(None, answers)
  }

  /** Reference definition: the index of the first record with a truthy
      address, or the number of records if there is none. */
  function FirstAddressed(answers: seq<Answer>): (k: nat)
    ensures k <= |answers|
    ensures forall i :: 0 <= i < k ==> !Truthy(answers[i].address)
    ensures k < |answers| ==> Truthy(answers[k].address)
    decreases |answers|
  {
    if |answers| == 0 then 0
    else if Truthy(answers[0].address) then 0
    else 1 + FirstAddressed(answers[1..])
  }

  lemma {:induction false} FoldAddressKeepsTruthy(found: Option<string>, answers: seq<Answer>)
    requires Truthy(found)
    ensures FoldAddress(found, answers) == found
    decreases |answers|
  {
    if |answers| > 0 {
      FoldAddressKeepsTruthy(found, answers[1..]);
    }
  }

  lemma {:induction false} FoldAddressFromFalsy(found: Option<string>, answers: seq<Answer>)
    requires !Truthy(found)
    ensures var k := FirstAddressed(answers);
            if k < |answers| then FoldAddress(found, answers) == answers[k].address
            else !Truthy(FoldAddress(found, answers))
    decreases |answers|
  {
    if |answers| > 0 {
      if Truthy(answers[0].address) {
        FoldAddressKeepsTruthy(answers[0].address, answers[1..]);
      } else {
        FoldAddressFromFalsy(answers[0].address, answers[1..]);
      }
    }
  }

  /** The address kept is that of the first record that has one; when no
      record has one, the result is falsy. */
  lemma FoundAddressIsFirst(answers: seq<Answer>)
    ensures var k := FirstAddressed(answers);
            && (k < |answers| ==> FoundAddress(answers) == answers[k].address)
            && (k == |answers| ==> !Truthy(FoundAddress(answers)))
  {
    FoldAddressFromFalsy(None, answers);
  }

  lemma {:induction false} FoldAddressAppend(found: Option<string>, a: seq<Answer>, b: seq<Answer>)
    ensures FoldAddress(found, a + b) == FoldAddress(FoldAddress(found, a), b)
    decreases |a|
  {
    if |a| == 0 {
      assert a + b == b;
    } else {
      assert (a + b)[0] == a[0];
      assert (a + b)[1..] == a[1..] + b;
      FoldAddressAppend(if Truthy(found) then found else a[0].address, a[1..], b);
    }
  }

  /** Records that arrive later never overwrite an address already found. */
  lemma LaterRecordsNeverOverwrite(a: seq<Answer>, b: seq<Answer>)
    requires Truthy(FoundAddress(a))
    ensures FoundAddress(a + b) == FoundAddress(a)
  {
    FoldAddressAppend(None, a, b);
    FoldAddressKeepsTruthy(FoundAddress(a), b);
  }

  /** How the direct A-record query ended: the 4-second timeout fired, or the
      request ended after delivering the given answer records. The timeout
      fires only when no answer arrived, and the request still ends after it,
      so `end` then finds no address. */
  datatype DnsOutcome = TimedOut | Answered(answers: seq<Answer>)

  /** The error `resolve` calls back with when the query times out. */
  function TimeoutError(hostname: string): string {
    "Timeout resolving " + hostname
  }

  /** The error `latestSha` calls back with when no address was found. */
  function NoAddressError(hostname: string): string {
    "Found no IP for host " + hostname
  }

  /** `resolve(hostname, cb)`: the values `cb` is called with, in order.
      `zoneError` is the error, if any, of the nameserver lookup for
      `ParentDomain(hostname)`. The `timeout` and `end` handlers both call
      back, so a timeout is followed by a second call, from `end`, with no
      address. */
  function Resolve(hostname: string, zoneError: Option<string>, dns: DnsOutcome): (rs: seq<Result<Option<string>, string>>)
    ensures zoneError.Some? ==> rs == [Failure(zoneError.value)]
    ensures zoneError.None? && dns.TimedOut? ==> rs == [Failure(TimeoutError(hostname)), Success(None)]
    ensures zoneError.None? && dns.Answered? ==>
              && |rs| == 1 && rs[0].Success?
              && (Truthy(rs[0].value) <==> exists i :: 0 <= i < |dns.answers| && Truthy(dns.answers[i].address))
    ensures zoneError.None? && dns.Answered? ==> rs == [Success(FoundAddress(dns.answers))]
    ensures zoneError.None? && dns.Answered? && FirstAddressed(dns.answers) < |dns.answers| ==>
              rs == [Success(dns.answers[FirstAddressed(dns.answers)].address)]
  {
    match zoneError
    case Some(e) => [Failure(e)]
    case None =>
      match dns
      case TimedOut => [Failure(TimeoutError(hostname)), Success(None)]
      case Answered(answers) =>
        FoundAddressIsFirst(answers);
        [Success(FoundAddress(answers))]
  }

  // ---------------------------------------------------------------------------
  // Phase 2: the version marker

  /** What happens after `resolve` calls back: give up with an error, or
      fetch `/ver.txt` from an address. */
  datatype AfterResolve = GiveUp(error: string) | FetchFrom(ip: string)

  function NextAfterResolve(hostname: string, resolved: Result<Option<string>, string>): (n: AfterResolve)
    ensures resolved.Failure? ==> n == GiveUp(resolved.error)
    ensures resolved.Success? && !Truthy(resolved.value) ==> n == GiveUp(NoAddressError(hostname))
    ensures n.FetchFrom? <==> resolved.Success? && Truthy(resolved.value)
    ensures n.FetchFrom? ==> resolved.value == Some(n.ip) && n.ip != ""
  {
    match resolved
    case Failure(e) => GiveUp(e)
    case Success(ip) => if !Truthy(ip) then GiveUp(NoAddressError(hostname)) else FetchFrom(ip.value)
  }

  /** Parses the body of ver.txt: the text before the first space must be
      exactly ShaLength characters long. Only the space character splits, so
      a newline right after the sha leaves the token too long. */
  function ParseVersion(body: string): (r: Result<string, string>)
    ensures r.Success? <==> && |body| >= ShaLength
                            && ' ' !in body[..ShaLength]
                            && (|body| == ShaLength || body[ShaLength] == ' ')
    ensures r.Success? ==> r.value == body[..ShaLength]
    ensures r.Failure? ==> r.error == "malformed ver.txt: " + body
  {
    var sha := Split(body, ' ')[0];
    FirstPiece(body, ' ');
    if |sha| == ShaLength then
      Success(sha)
    else
      assert !(|body| >= ShaLength && ' ' !in body[..ShaLength]
               && (|body| == ShaLength || body[ShaLength] == ' ')) by {
        if |body| >= ShaLength && ' ' !in body[..ShaLength] {
          if |sha| > ShaLength {
            assert sha[ShaLength] == body[ShaLength];
          }
        }
      }
      Failure("malformed ver.txt: " + body)
  }

  /** A ver.txt holding a 7-character sha, alone or followed by a space and
      anything else, yields that sha. */
  lemma VersionMarkerRoundTrip(sha: string, rest: string)
    requires |sha| == ShaLength && ' ' !in sha
    ensures ParseVersion(sha) == Success(sha)
    ensures ParseVersion(sha + " " + rest) == Success(sha)
  {
    var body := sha + " " + rest;
    assert sha[..ShaLength] == sha;
    assert body[..ShaLength] == sha;
    assert body[ShaLength] == ' ';
  }

  /** A ver.txt holding the sha followed by a newline is malformed. */
  lemma TrailingNewlineIsMalformed(sha: string)
    requires |sha| == ShaLength && ' ' !in sha
    ensures ParseVersion(sha + "\n") == Failure("malformed ver.txt: " + sha + "\n")
  {
    assert (sha + "\n")[ShaLength] == '\n';
    assert "malformed ver.txt: " + (sha + "\n") == "malformed ver.txt: " + sha + "\n";
  }

  /** How the HTTP GET of /ver.txt ended: a request error, or the whole body. */
  datatype HttpOutcome = HttpError(error: string) | Body(text: string)

  /** What one call of `resolve`'s callback passes on to `latestSha`'s caller,
      given the outcome of the fetch it may start. */
  function Deliver(hostname: string, resolved: Result<Option<string>, string>, http: HttpOutcome): (r: Result<string, string>)
    ensures r.Success? ==> |r.value| == ShaLength && ' ' !in r.value
    ensures NextAfterResolve(hostname, resolved).GiveUp? ==> r == Failure(NextAfterResolve(hostname, resolved).error)
  {
    match NextAfterResolve(hostname, resolved)
    case GiveUp(e) => Failure(e)
    case FetchFrom(_) =>
      match http
      case HttpError(e) => Failure(e)
      case Body(text) => ParseVersion(text)
  }

  /** `latestSha(hostname, cb)`, given the outcomes of its three network
      steps: the values `cb` is called with, in order. The HTTP outcome is
      consulted only when an address was found. A timeout makes `cb` fire
      twice: first with the timeout, then with "Found no IP for host". */
  function LatestSha(hostname: string, zoneError: Option<string>, dns: DnsOutcome, http: HttpOutcome): (rs: seq<Result<string, string>>)
    ensures 1 <= |rs| <= 2
    ensures |rs| == 2 <==> zoneError.None? && dns.TimedOut?
    ensures forall k :: 0 <= k < |rs| && rs[k].Success? ==> |rs[k].value| == ShaLength && ' ' !in rs[k].value
    ensures zoneError.Some? ==> rs == [Failure(zoneError.value)]
    ensures zoneError.None? && dns.TimedOut? ==>
              rs == [Failure(TimeoutError(hostname)), Failure(NoAddressError(hostname))]
    ensures zoneError.None? && dns.Answered? && !Truthy(FoundAddress(dns.answers)) ==>
              rs == [Failure(NoAddressError(hostname))]
    ensures zoneError.None? && dns.Answered? && Truthy(FoundAddress(dns.answers)) ==>
              rs == [match http
                     case HttpError(e) => Failure(e)
                     case Body(text) => ParseVersion(text)]
  {
    var resolved := Resolve(hostname, zoneError, dns);
    if |resolved| == 1 then
      [Deliver(hostname, resolved[0], http)]
    else
      [Deliver(hostname, resolved[0], http), Deliver(hostname, resolved[1], http)]
  }

  /** When no call of `resolve`'s callback carries an address, the HTTP
      outcome plays no part: no fetch happens and every call is an error. */
  lemma NoFetchWithoutAddress(hostname: string, zoneError: Option<string>, dns: DnsOutcome, h1: HttpOutcome, h2: HttpOutcome)
    requires forall r | r in Resolve(hostname, zoneError, dns) :: NextAfterResolve(hostname, r).GiveUp?
    ensures LatestSha(hostname, zoneError, dns, h1) == LatestSha(hostname, zoneError, dns, h2)
    ensures forall r | r in LatestSha(hostname, zoneError, dns, h1) :: r.Failure?
  {
    var resolved := Resolve(hostname, zoneError, dns);
    assert resolved[0] in resolved;
    if |resolved| == 2 {
      assert resolved[1] in resolved;
    }
  }
}

=== FILE: pipeline.dfy ===
/** How the pieces fit together: the exit code of deploy_dev.js decides what
    the deployer reports, the host whose revision is checked sits in the zone
    the dev VMs are named after, and the VM just created is never among those
    the cleanup decommissions. */
module Pipeline {
  import opened Wrappers
  import opened Strings
  import opened LatestSha
  import opened DeployDev
  import opened DeployServer
  import opened Deployer

  /** The deploy host's records are looked up at the nameserver of
      "dev.anosrep.org". */
  lemma DeployHostZone()
    ensures ParentDomain(DeployHostname) == "dev.anosrep.org"
  {
    assert DeployHostname == "login" + "." + "dev.anosrep.org";
    ParentDomainOfLabel("login", "dev.anosrep.org");
  }

  /** What the deployer does with the exit code of a given run. */
  lemma DeployExitOfRun(s: State, i: nat, run: DevRun)
    requires i < |s.pending| && s.pending[i].Deploy?
    ensures var t := Step(s, DeployExit(i, Some(ProcessExit(run))));
            && (DeploymentComplete(s.pending[i].latest) in t.events <==> run.fatal.None?)
            && (t.cleanup <==> run.fatal.None?)
            && (Error(ExitFailure) in t.events <==> run.fatal.Some?)
            && !t.next.busy
  {
  }

  /** The exit of a deploy_dev.js run decides the deployer's step: the
      deployment completes and cleanup starts exactly when every step of the
      run succeeded; otherwise the deployer emits its error. */
  lemma DevRunDrivesDeployer(s: State, i: nat, env: Option<string>, inputs: DevInputs)
    requires i < |s.pending| && s.pending[i].Deploy?
    requires |inputs.keyResults| == |Keypairs(env)|
    ensures var t := Step(s, DeployExit(i, Some(ProcessExit(RunDev(env, inputs)))));
            && (DeploymentComplete(s.pending[i].latest) in t.events <==> forall step :: StepSucceeds(inputs, step))
            && (t.cleanup <==> forall step :: StepSucceeds(inputs, step))
            && (Error(ExitFailure) in t.events <==> exists step :: !StepSucceeds(inputs, step))
            && !t.next.busy
  {
    DeployExitOfRun(s, i, RunDev(env, inputs));
  }

  /** When the DNS request for the deploy host times out, `latestSha` calls
      back twice, with exactly the two values the deployer's inputs
      `RunningShaTimedOut` and `RequestEnded` deliver. */
  lemma TimeoutCallsBackTwice(http: HttpOutcome)
    ensures LatestSha.LatestSha(DeployHostname, None, TimedOut, http)
            == [Failure(TimeoutError(DeployHostname)), Failure(NoAddressError(DeployHostname))]
  {
  }

  /** The VM a run just created carries the latest sha in its name, so the
      cleanup that follows with that sha does not select it. */
  lemma NewVmSurvivesCleanup(vms: seq<Vm>, sha: string, id: string)
    ensures Vm(VmName(sha), id) !in SelectStale(vms, sha)
  {
  }

  /** A git sha is written in hexadecimal digits. */
  predicate IsHexDigit(c: char) {
    '0' <= c <= '9' || 'a' <= c <= 'f' || 'A' <= c <= 'F'
  }

  /** The stale-VM filter looks for the deploy host name, but a dev VM is
      named after the zone, "dev.anosrep.org (<sha>)". Neither that text nor
      a hexadecimal sha of any length holds an 'l', the host name's first
      character, so the filter never selects a VM deploy_dev.js created. */
  lemma DevVmsNeverSelected(vms: seq<Vm>, sha: string, latest: string, id: string)
    requires forall k :: 0 <= k < |sha| ==> IsHexDigit(sha[k])
    ensures !Contains(VmName(sha), DeployHostname)
    ensures Vm(VmName(sha), id) !in SelectStale(vms, latest)
  {
    HexVmNameHasNoL(sha);
    assert DeployHostname[0] == 'l';
    MissingFirstCharacter(VmName(sha), DeployHostname);
  }

  /** A dev VM's name, for a hexadecimal sha, holds no 'l'. */
  lemma HexVmNameHasNoL(sha: string)
    requires forall k :: 0 <= k < |sha| ==> IsHexDigit(sha[k])
    ensures 'l' !in VmName(sha)
  {
    NoLAround(sha);
    assert VmName(sha) == VmNamePrefix + sha + ")";
  }

  lemma NoLAround(sha: string)
    requires forall k :: 0 <= k < |sha| ==> IsHexDigit(sha[k])
    ensures 'l' !in VmNamePrefix + sha + ")"
  {
    var name := VmNamePrefix + sha + ")";
    assert 'l' !in VmNamePrefix;
    forall k | 0 <= k < |name| ensures name[k] != 'l' {
      if k < |VmNamePrefix| {
        assert name[k] == VmNamePrefix[k];
      } else if k < |VmNamePrefix| + |sha| {
        assert name[k] == sha[k - |VmNamePrefix|];
      }
    }
  }
}

=== FILE: strings.dfy ===
/** The few JavaScript string operations the watchdog relies on, over `string`
    (a sequence of characters): `split` and `join` with a one-character
    separator, `trim`, `indexOf`, and JavaScript truthiness of an optional
    string. */
module Strings {
  import opened Wrappers

  /** A possibly absent string is truthy when it is present and non-empty. */
  predicate Truthy(v: Option<string>) {
    v.Some? && v.value != ""
  }

  // ---------------------------------------------------------------------------
  // indexOf

  /** `t` occurs in `s` starting at index `i`. */
  predicate OccursAt(s: string, t: string, i: int) {
    0 <= i && i + |t| <= |s| && s[i..i + |t|] == t
  }

  /** `s.indexOf(t)`: the first index at which `t` occurs, or -1. */
  function IndexOf(s: string, t: string): (r: int)
    ensures -1 <= r <= |s|
    ensures r == -1 <==> forall i :: 0 <= i <= |s| ==> !OccursAt(s, t, i)
    ensures r >= 0 ==> OccursAt(s, t, r) && forall i :: 0 <= i < r ==> !OccursAt(s, t, i)
    decreases |s|
  {
    if |t| <= |s| && s[..|t|] == t then
      assert OccursAt(s, t, 0);
      0
    else if |s| == 0 then
      -1
    else
      var k := IndexOf(s[1..], t);
      OccursInTail(s, t);
      assert !OccursAt(s, t, 0);
      if k == -1 then -1 else assert OccursAt(s, t, k + 1); k + 1
  }

  lemma OccursInTail(s: string, t: string)
    requires |s| > 0
    ensures forall i :: 1 <= i <= |s| ==> (OccursAt(s, t, i) <==> OccursAt(s[1..], t, i - 1))
  {
    forall i | 1 <= i <= |s|
      ensures OccursAt(s, t, i) <==> OccursAt(s[1..], t, i - 1)
    {
      if i + |t| <= |s| {
        assert s[1..][i - 1..i - 1 + |t|] == s[i..i + |t|];
      }
    }
  }

  /** `s.indexOf(t) !== -1`. */
  predicate Contains(s: string, t: string) {
    IndexOf(s, t) != -1
  }

  /** A string cannot contain a pattern whose first character it lacks. */
  lemma MissingFirstCharacter(s: string, t: string)
    requires |t| > 0 && t[0] !in s
    ensures !Contains(s, t)
  {
  }

  /** Prefixing a string with text that lacks the pattern's first character
      cannot create an occurrence of the pattern. */
  lemma PrefixKeepsAbsence(p: string, s: string, t: string)
    requires |t| > 0 && t[0] !in p && !Contains(s, t)
    ensures !Contains(p + s, t)
  {
    var r := p + s;
    forall i | 0 <= i <= |r| ensures !OccursAt(r, t, i) {
      if i + |t| <= |r| {
        if i < |p| {
          assert r[i..i + |t|][0] == p[i];
        } else {
          assert r[i..i + |t|] == s[i - |p|..i - |p| + |t|];
          assert !OccursAt(s, t, i - |p|);
        }
      }
    }
  }

  // ---------------------------------------------------------------------------
  // split and join with a one-character separator

  /** `s.split(c)`: the maximal runs of `s` between occurrences of `c`; always
      at least one piece (`"".split(c)` is `[""]`). */
  function Split(s: string, c: char): (r: seq<string>)
    ensures |r| >= 1
    ensures forall i :: 0 <= i < |r| ==> c !in r[i]
    decreases |s|
  {
    if |s| == 0 then
      [""]
    else
      var rest := Split(s[1..], c);
      if s[0] == c then [""] + rest
      else [[s[0]] + rest[0]] + rest[1..]
  }

  /** `parts.join(c)`; the empty list joins to the empty string. */
  function Join(parts: seq<string>, c: char): string
    decreases |parts|
  {
    if |parts| == 0 then ""
    else if |parts| == 1 then parts[0]
    else parts[0] + [c] + Join(parts[1..], c)
  }

  lemma {:induction false} SplitNoSeparator(s: string, c: char)
    requires c !in s
    ensures Split(s, c) == [s]
    decreases |s|
  {
    if |s| > 0 {
      SplitNoSeparator(s[1..], c);
      assert [s[0]] + s[1..] == s;
    }
  }

  /** How `Split` treats the first character. */
  lemma SplitCons(x: char, rest: string, c: char)
    ensures Split([x] + rest, c)
            == if x == c then [""] + Split(rest, c)
               else [[x] + Split(rest, c)[0]] + Split(rest, c)[1..]
  {
    assert ([x] + rest)[1..] == rest;
  }

  /** Splitting at one occurrence of the separator splits the two sides independently. */
  lemma {:induction false} SplitAround(a: string, b: string, c: char)
    ensures Split(a + [c] + b, c) == Split(a, c) + Split(b, c)
    decreases |a|
  {
    if |a| == 0 {
      assert a + [c] + b == [c] + b;
      SplitCons(c, b, c);
    } else {
      var tail := a[1..] + [c] + b;
      assert a + [c] + b == [a[0]] + tail;
      assert a == [a[0]] + a[1..];
      SplitCons(a[0], tail, c);
      SplitCons(a[0], a[1..], c);
      SplitAround(a[1..], b, c);
      if a[0] != c {
        SplitConsAppend(a[0], Split(a[1..], c), Split(b, c));
      }
    }
  }

  /** The list step of `SplitAround` when the first character is kept. */
  lemma SplitConsAppend(x: char, left: seq<string>, right: seq<string>)
    requires |left| >= 1
    ensures [[x] + (left + right)[0]] + (left + right)[1..] == ([[x] + left[0]] + left[1..]) + right
  {
    assert (left + right)[0] == left[0];
    assert (left + right)[1..] == left[1..] + right;
  }

  /** Splitting at the first occurrence of the separator. */
  lemma SplitAtFirst(s: string, c: char, k: nat)
    requires k < |s| && s[k] == c && c !in s[..k]
    ensures Split(s, c) == [s[..k]] + Split(s[k + 1..], c)
  {
    assert s == s[..k] + [c] + s[k + 1..];
    SplitAround(s[..k], s[k + 1..], c);
    SplitNoSeparator(s[..k], c);
  }

  /** The first piece of a split is the prefix of `s` up to the first separator. */
  lemma {:induction false} FirstPiece(s: string, c: char)
    ensures var p := Split(s, c)[0];
            |p| <= |s| && p == s[..|p|] && (|p| == |s| || s[|p|] == c)
    decreases |s|
  {
    if |s| > 0 {
      FirstPiece(s[1..], c);
    }
  }

  /** Joining the pieces of a split gives back the original string. */
  lemma {:induction false} JoinSplit(s: string, c: char)
    ensures Join(Split(s, c), c) == s
    decreases |s|
  {
    if |s| > 0 {
      var rest := Split(s[1..], c);
      JoinSplit(s[1..], c);
      if s[0] == c {
        assert Join([""] + rest, c) == "" + [c] + Join(rest, c) by {
          assert ([""] + rest)[1..] == rest;
        }
        assert [s[0]] + s[1..] == s;
      } else if |rest| == 1 {
        assert [s[0]] + s[1..] == s;
      } else {
        var parts := [[s[0]] + rest[0]] + rest[1..];
        assert parts[1..] == rest[1..];
        assert Join(rest, c) == rest[0] + [c] + Join(rest[1..], c);
        assert [s[0]] + s[1..] == s;
      }
    }
  }

  /** Splitting a join of separator-free pieces gives back the pieces. */
  lemma {:induction false} SplitJoin(parts: seq<string>, c: char)
    requires |parts| >= 1
    requires forall i :: 0 <= i < |parts| ==> c !in parts[i]
    ensures Split(Join(parts, c), c) == parts
    decreases |parts|
  {
    SplitNoSeparator(parts[0], c);
    if |parts| > 1 {
      SplitJoin(parts[1..], c);
      SplitAround(parts[0], Join(parts[1..], c), c);
      assert [parts[0]] + parts[1..] == parts;
    }
  }

  // ---------------------------------------------------------------------------
  // trim

  /** The code points `String.prototype.trim` strips: JavaScript's WhiteSpace
      (tab, vertical tab, form feed, space, no-break space, byte order mark and
      the Unicode space separators) and LineTerminator (LF, CR, U+2028, U+2029). */
  predicate IsSpace(c: char) {
    || c == '\t' || c == '\n' || c == '\U{000B}' || c == '\U{000C}' || c == '\r'
    || c == ' ' || c == '\U{00A0}' || c == '\U{1680}' || ('\U{2000}' <= c <= '\U{200A}')
    || c == '\U{2028}' || c == '\U{2029}' || c == '\U{202F}' || c == '\U{205F}'
    || c == '\U{3000}' || c == '\U{FEFF}'
  }

  predicate AllSpace(s: string) {
    forall i :: 0 <= i < |s| ==> IsSpace(s[i])
  }

  /** Drops the leading white space: what is removed is all white space and
      what is kept does not start with white space. */
  function TrimStart(s: string): (r: string)
    ensures |r| <= |s| && r == s[|s| - |r|..]
    ensures AllSpace(s[..|s| - |r|])
    ensures r == [] || !IsSpace(r[0])
    decreases |s|
  {
    if |s| > 0 && IsSpace(s[0]) then TrimStart(s[1..]) else s
  }

  /** Drops the trailing white space. */
  function TrimEnd(s: string): (r: string)
    ensures |r| <= |s| && r == s[..|r|]
    ensures AllSpace(s[|r|..])
    ensures r == [] || !IsSpace(r[|r| - 1])
    decreases |s|
  {
    if |s| > 0 && IsSpace(s[|s| - 1]) then TrimEnd(s[..|s| - 1]) else s
  }

  /** Neither starts nor ends with white space. */
  predicate Trimmed(t: string) {
    t == [] || (!IsSpace(t[0]) && !IsSpace(t[|t| - 1]))
  }

  /** `s.trim()`: `s` without its leading and trailing white space. */
  function Trim(s: string): (r: string)
    ensures |r| <= |s|
    ensures Trimmed(r)
  {
    var a := TrimStart(s);
    var r := TrimEnd(a);
    TrimEndsClean(a, r);
    r
  }

  lemma TrimEndsClean(a: string, r: string)
    requires a == [] || !IsSpace(a[0])
    requires |r| <= |a| && r == a[..|r|] && (r == [] || !IsSpace(r[|r| - 1]))
    ensures Trimmed(r)
  {
    if r != [] {
      assert r[0] == a[0];
    }
  }

  /** What `Trim` keeps is an infix of its input, and everything it drops on
      either side is white space. */
  lemma TrimIsInfix(s: string)
    ensures var r := Trim(s);
            exists i :: 0 <= i && i + |r| <= |s| && r == s[i..i + |r|]
                        && AllSpace(s[..i]) && AllSpace(s[i + |r|..])
  {
    var a := TrimStart(s);
    var r := Trim(s);
    assert r == TrimEnd(a);
    InfixParts(s, a, r);
  }

  lemma InfixParts(s: string, a: string, r: string)
    requires |a| <= |s| && a == s[|s| - |a|..] && AllSpace(s[..|s| - |a|])
    requires |r| <= |a| && r == a[..|r|] && AllSpace(a[|r|..])
    ensures var i := |s| - |a|;
            && r == s[i..i + |r|] && AllSpace(s[..i]) && AllSpace(s[i + |r|..])
  {
    var i := |s| - |a|;
    assert r == s[i..i + |r|];
    assert s[i + |r|..] == a[|r|..];
  }

  /** A character of a slice is a character of the whole. */
  lemma InSlice(s: string, i: nat, j: nat, ch: char)
    requires i <= j <= |s|
    ensures ch in s[i..j] ==> ch in s
  {
    if ch in s[i..j] {
      var k :| 0 <= k < j - i && s[i..j][k] == ch;
      assert s[i + k] == ch;
    }
  }

  /** Trimming only removes characters. */
  lemma TrimKeepsCharacters(s: string, ch: char)
    ensures ch in Trim(s) ==> ch in s
  {
    var a := TrimStart(s);
    var r := TrimEnd(a);
    assert Trim(s) == r;
    InSlice(a, 0, |r|, ch);
    InSlice(s, |s| - |a|, |s|, ch);
  }

  /** A string of white space has nothing left after its leading white space. */
  lemma TrimStartOfSpace(s: string)
    requires AllSpace(s)
    ensures TrimStart(s) == []
  {
  }

  /** A string trims to nothing exactly when it is all white space. */
  lemma TrimEmptyIffAllSpace(s: string)
    ensures Trim(s) == [] <==> AllSpace(s)
  {
    var a := TrimStart(s);
    if AllSpace(s) {
      TrimStartOfSpace(s);
    }
    if TrimEnd(a) == [] {
      assert a[|TrimEnd(a)|..] == a;
      assert a == [];
      assert s[..|s|] == s;
    }
  }

  /** A string that neither starts nor ends with white space is its own trim. */
  lemma TrimOfTrimmed(s: string)
    requires Trimmed(s)
    ensures Trim(s) == s
  {
    assert TrimStart(s) == s;
    assert TrimEnd(s) == s;
  }

  /** Trimming a trimmed string changes nothing. */
  lemma TrimIdempotent(s: string)
    ensures Trim(Trim(s)) == Trim(s)
  {
    TrimOfTrimmed(Trim(s));
  }
}

=== FILE: wrappers.dfy ===
/** Absent values and callback outcomes.
- Option<T> stands for a JavaScript value that may be null or undefined.
- Result<T, E> stands for a Node-style callback `cb(err, value)`: exactly one
  of the two is meaningful.
 */
module Wrappers {

  datatype Option<+T> = None | Some(value: T)

  datatype Result<+T, +E> = Success(value: T) | Failure(error: E)
}
